=== FILE: README.md ===
# OVS-DPDK core masks and tenant network mappings, in Dafny

This project models two helper modules of a Kolla deployment of OpenStack with
OVS-DPDK, and proves properties of the model.

**Core reservation** is `calculate_pmd_core_masks.py`. For every network
interface, the kernel reports the CPUs local to its NUMA node as a cpulist
string such as `0-17,36-53`. The module:

- parses each cpulist into a sorted list of core numbers;
- takes cores from the front of every list of more than four cores: one
  "unused" core, one core for the OVS thread, two for PMD (poll mode
  driver) threads, and the rest unused. The first core is set aside so that
  core 0 is never given to OVS or PMD. That holds when every list is
  strictly ascending, that is sorted with no core repeated
  (`CoreSelection.CoreZeroNeverSelected`). The parser sorts but keeps
  duplicates, though: the cpulist `0,0-5` hands core 0 to OVS as well
  (`CoreSelectionExamples.CoreZeroGivenAway`);
- prints each resulting set as a hexadecimal mask such as `0x6`, with the
  empty set printed as the empty string.

**Network mappings** is `generate_network_mappings.py`. For each tenant
network port, it takes one attribute (the interface name, or the VLAN range).
Each formatter joins its entries with commas into a string that goes into
`local.conf`:

- `do_ovs_bridge_mapping`, `do_m2_vlan_ranges` and the two `do_odl_*`
  formatters sort the values and number them: `physnet1:...`,
  `physnet2:...`, and so on;
- `do_vlan_interface` sorts the values and does not number them;
- `do_ovs_physical_bridge` sorts the values and prefixes each with `br-`,
  without numbers;
- `do_physical_network` neither sorts nor looks at the values: it only
  counts them, giving `physnet1` to `physnet{n}`.

Modules and files:

| file | module | what it holds |
|---|---|---|
| `wrappers.dfy` | `Wrappers` | `Option`, `Result` |
| `text.dfy` | `Text` | `str.split` on one character, `str.join`, the string order used by `sorted` |
| `numerals.dfy` | `Numerals` | digits in base 10 and 16, `int()` on a numeral, `hex()` without its prefix |
| `sorting.dfy` | `Sorting` | `sorted` on integers, sets and strings |
| `cpu_list.dfy` | `CpuList`, `CpuListExamples` | `split_cpu_list` and the program's own test inputs |
| `core_mask.dfy` | `CoreMask`, `CoreMaskExamples` | `gen_core_mask` and how a mask is read back |
| `core_selection.dfy` | `CoreSelection`, `CoreSelectionExamples` | `select_masked_cores` (a method with a loop), `select_cores`, the cores of other NUMA nodes |
| `network_mappings.dfy` | `NetworkMappings`, `NetworkMappingsExamples` | the seven `do_*` formatters, `MAPPINGS`, `PORT_ATTRIBUTE`, one mapping computed from the ports |

Where the docstrings and the code disagree, the model follows the code:

- `split_cpu_list` does not remove duplicates. Overlapping tokens give a
  core twice (`CpuListExamples.OverlapKept`).
- A token whose low end is above its high end stands for no cores
  (`CpuListExamples.ReversedRange`).
- A token with three or more hyphen-separated numbers keeps only its first
  number. The upper bound is `bound[0] + 1` whenever `len(bound) != 2`
  (`CpuListExamples.ThreeNumbers`).
- `select_masked_cores` takes its cores from the FRONT of every list
  (`pop(0)`). Its docstring says it selects "from the end".
- A list of four cores or fewer adds nothing to any of the three sets, not
  even to the unused set (`CoreSelection.SmallListsIgnored`).

## Model

Paths are relative to the repository root.

| member | source | states |
|---|---|---|
| CpuList.Range | kolla_deploy/roles/calculate_core_masks/library/calculate_pmd_core_masks.py:65 | `xrange(lo, hi)` has `hi - lo` elements (none when `lo >= hi`), and element `k` is `lo + k` |
| CpuList.High | kolla_deploy/roles/calculate_core_masks/library/calculate_pmd_core_masks.py:65 | the upper end of a token is one of its numbers, and the first one unless the token has exactly two |
| CpuList.Expand | kolla_deploy/roles/calculate_core_masks/library/calculate_pmd_core_masks.py:65 | a token expands to as many cores as its size, each one covered by the token |
| CpuList.Chain | kolla_deploy/roles/calculate_core_masks/library/calculate_pmd_core_masks.py:67 | chaining the expanded tokens gives as many cores as the sizes of the tokens add up to |
| CpuList.ParseInts | kolla_deploy/roles/calculate_core_masks/library/calculate_pmd_core_masks.py:63 | `int()` over the parts succeeds exactly when every part is a decimal numeral, and the numbers are their values in order; a failure names a part that is not a numeral |
| CpuList.ParseIntsOk | kolla_deploy/roles/calculate_core_masks/library/calculate_pmd_core_masks.py:63 | parts whose values are known parse to exactly those values |
| CpuList.ParseBound | kolla_deploy/roles/calculate_core_masks/library/calculate_pmd_core_masks.py:63 | a parsed token always holds at least one number (`split` never returns an empty list) |
| CpuList.ParseTokens | kolla_deploy/roles/calculate_core_masks/library/calculate_pmd_core_masks.py:62-63 | the tokens parse exactly when each one does, and each result is that token's numbers |
| CpuList.ParseTokensOk | kolla_deploy/roles/calculate_core_masks/library/calculate_pmd_core_masks.py:62-63 | tokens whose numbers are known parse to exactly those numbers |
| CpuList.SplitCpuList | kolla_deploy/roles/calculate_core_masks/library/calculate_pmd_core_masks.py:60-69 | the empty cpulist gives `[]`; every result is in ascending order |
| CpuList.RangeMultiplicity | kolla_deploy/roles/calculate_core_masks/library/calculate_pmd_core_masks.py:65 | a range holds each core in `[lo, hi)` once and nothing else |
| CpuList.ChainMultiplicity | kolla_deploy/roles/calculate_core_masks/library/calculate_pmd_core_masks.py:65-67 | chaining the ranges gives each core as many times as there are tokens covering it |
| CpuList.CoveragePositive | kolla_deploy/roles/calculate_core_masks/library/calculate_pmd_core_masks.py:65-67 | a core is covered at least once exactly when some token covers it |
| CpuList.SplitCpuListContents | kolla_deploy/roles/calculate_core_masks/library/calculate_pmd_core_masks.py:60-67 | for a cpulist that parses, the result holds core `c` once per token that covers `c` (no deduplication), its length is the total size of the ranges, and `c` is in it exactly when some token covers `c` |
| CpuList.ParseTokensFails | kolla_deploy/roles/calculate_core_masks/library/calculate_pmd_core_masks.py:63 | parsing the tokens fails exactly when some part of some token is not a numeral |
| CpuList.SplitCpuListFails | kolla_deploy/roles/calculate_core_masks/library/calculate_pmd_core_masks.py:60-69 | `split_cpu_list` fails exactly when the cpulist is not empty and some hyphen-separated part of some comma-separated token is not a numeral |
| CpuListExamples.RangeToken | kolla_deploy/roles/calculate_core_masks/library/calculate_pmd_core_masks.py:63 | a token `low-high` parses to its two numbers |
| CpuListExamples.AscendingRanges | kolla_deploy/roles/calculate_core_masks/library/calculate_pmd_core_masks.py:67 | two ranges one after the other are already ascending |
| CpuListExamples.SingleRangeTokens | kolla_deploy/roles/calculate_core_masks/library/calculate_pmd_core_masks.py:62-63 | `"14-27"` is one token with the numbers 14 and 27 |
| CpuListExamples.SingleRange | kolla_deploy/roles/calculate_core_masks/library/calculate_pmd_core_masks.py:79-82 | `"14-27"` is `range(14, 28)` |
| CpuListExamples.SingleRangeChain | kolla_deploy/roles/calculate_core_masks/library/calculate_pmd_core_masks.py:65-67 | the token `14-27` expands to `range(14, 28)` |
| CpuListExamples.TwoRangesSplit | kolla_deploy/roles/calculate_core_masks/library/calculate_pmd_core_masks.py:62 | `"0-17,36-53"` splits into its two tokens |
| CpuListExamples.LowToken | kolla_deploy/roles/calculate_core_masks/library/calculate_pmd_core_masks.py:63 | `"0-17"` parses to `[0, 17]` |
| CpuListExamples.HighToken | kolla_deploy/roles/calculate_core_masks/library/calculate_pmd_core_masks.py:63 | `"36-53"` parses to `[36, 53]` |
| CpuListExamples.TwoRangesTokens | kolla_deploy/roles/calculate_core_masks/library/calculate_pmd_core_masks.py:62-63 | both tokens of `"0-17,36-53"` parse |
| CpuListExamples.TwoRanges | kolla_deploy/roles/calculate_core_masks/library/calculate_pmd_core_masks.py:72-76 | `"0-17,36-53"` is `range(0, 18) + range(36, 54)` |
| CpuListExamples.OverlapSplit | kolla_deploy/roles/calculate_core_masks/library/calculate_pmd_core_masks.py:62 | `"0-3,2-5"` splits into its two tokens |
| CpuListExamples.OverlapLowToken | kolla_deploy/roles/calculate_core_masks/library/calculate_pmd_core_masks.py:63 | `"0-3"` parses to `[0, 3]` |
| CpuListExamples.OverlapHighToken | kolla_deploy/roles/calculate_core_masks/library/calculate_pmd_core_masks.py:63 | `"2-5"` parses to `[2, 5]` |
| CpuListExamples.OverlapTokens | kolla_deploy/roles/calculate_core_masks/library/calculate_pmd_core_masks.py:62-63 | both tokens of `"0-3,2-5"` parse |
| CpuListExamples.OverlapCounts | kolla_deploy/roles/calculate_core_masks/library/calculate_pmd_core_masks.py:65-67 | the tokens `0-3` and `2-5` have eight cores in all and both cover core 2 |
| CpuListExamples.OverlapKept | kolla_deploy/roles/calculate_core_masks/library/calculate_pmd_core_masks.py:65-67 | `"0-3,2-5"` gives eight cores with core 2 twice: overlaps are not removed |
| CpuListExamples.ReversedRange | kolla_deploy/roles/calculate_core_masks/library/calculate_pmd_core_masks.py:65 | `"5-3"` gives no cores |
| CpuListExamples.ThreeNumbersToken | kolla_deploy/roles/calculate_core_masks/library/calculate_pmd_core_masks.py:63 | `"1-5-9"` parses to three numbers |
| CpuListExamples.ThreeNumbersParsed | kolla_deploy/roles/calculate_core_masks/library/calculate_pmd_core_masks.py:62-63 | `"1-5-9"` is one token with three numbers |
| CpuListExamples.ThreeNumbers | kolla_deploy/roles/calculate_core_masks/library/calculate_pmd_core_masks.py:65 | `"1-5-9"` gives only core 1 |
| CpuListExamples.EmptyToken | kolla_deploy/roles/calculate_core_masks/library/calculate_pmd_core_masks.py:63 | `"1,,2"` fails on the empty token |
| CpuListExamples.RepeatedZeroSplit | kolla_deploy/roles/calculate_core_masks/library/calculate_pmd_core_masks.py:62 | `"0,0-5"` splits into `"0"` and `"0-5"` |
| CpuListExamples.ZeroToken | kolla_deploy/roles/calculate_core_masks/library/calculate_pmd_core_masks.py:63 | `"0"` parses to `[0]` |
| CpuListExamples.ZeroToFiveToken | kolla_deploy/roles/calculate_core_masks/library/calculate_pmd_core_masks.py:63 | `"0-5"` parses to `[0, 5]` |
| CpuListExamples.RepeatedZeroTokens | kolla_deploy/roles/calculate_core_masks/library/calculate_pmd_core_masks.py:62-63 | both tokens of `"0,0-5"` parse |
| CpuListExamples.RepeatedZeroChain | kolla_deploy/roles/calculate_core_masks/library/calculate_pmd_core_masks.py:65-67 | the tokens of `"0,0-5"` chain to core 0 twice, then 1 to 5 |
| CpuListExamples.RepeatedZeroSorted | kolla_deploy/roles/calculate_core_masks/library/calculate_pmd_core_masks.py:67 | that list is already sorted |
| CpuListExamples.RepeatedZero | kolla_deploy/roles/calculate_core_masks/library/calculate_pmd_core_masks.py:60-69 | `"0,0-5"` gives `[0, 0, 1, 2, 3, 4, 5]`: core 0 twice |
| CoreMask.Pow2Add | kolla_deploy/roles/calculate_core_masks/library/calculate_pmd_core_masks.py:173 | `2 ** (a + b) == 2 ** a * 2 ** b` |
| CoreMask.Hex | kolla_deploy/roles/calculate_core_masks/library/calculate_pmd_core_masks.py:173 | `hex(n)` is `0x` followed by digits that read back as `n`, with no leading zero: `0x0` for 0 |
| CoreMask.GenCoreMask | kolla_deploy/roles/calculate_core_masks/library/calculate_pmd_core_masks.py:171-177 | the mask is `""` exactly for the empty set; otherwise it is `0x` followed by lowercase hex digits with no leading zero; reading the mask back gives the set |
| CoreMask.GenCoreMaskOfCores | kolla_deploy/roles/calculate_core_masks/library/calculate_pmd_core_masks.py:173-177 | for a non-empty set the mask is `hex()` of the sum of `2 ** c` |
| CoreMask.CoresOf | kolla_deploy/roles/calculate_core_masks/library/calculate_pmd_core_masks.py:173 | the cores of a number are exactly its set bits |
| CoreMask.HasBitBound | kolla_deploy/roles/calculate_core_masks/library/calculate_pmd_core_masks.py:173 | a set bit lies below the number |
| CoreMask.SumOfPowersHalves | kolla_deploy/roles/calculate_core_masks/library/calculate_pmd_core_masks.py:173 | a sum of powers of two of cores that are all at least 1 is twice the sum for the cores one lower |
| CoreMask.DecrementAscending | kolla_deploy/roles/calculate_core_masks/library/calculate_pmd_core_masks.py:173 | lowering every core by one keeps them strictly ascending |
| CoreMask.DecrementMembers | kolla_deploy/roles/calculate_core_masks/library/calculate_pmd_core_masks.py:173 | `c` is among the lowered cores exactly when `c + 1` was among the cores |
| CoreMask.Pow2 | kolla_deploy/roles/calculate_core_masks/library/calculate_pmd_core_masks.py:173 | `2 ** k` is at least 1 |
| CoreMask.BitsOfDouble | kolla_deploy/roles/calculate_core_masks/library/calculate_pmd_core_masks.py:173 | bit 0 of `2 * m` is clear, and bit `c + 1` of `2 * m` is bit `c` of `m` |
| CoreMask.BitsOfDoublePlusOne | kolla_deploy/roles/calculate_core_masks/library/calculate_pmd_core_masks.py:173 | bit 0 of `2 * m + 1` is set, and bit `c + 1` of it is bit `c` of `m` |
| CoreMask.SumOfPowersOdd | kolla_deploy/roles/calculate_core_masks/library/calculate_pmd_core_masks.py:173 | when core 0 comes first, the sum of `2 ** c` is odd: one plus twice the sum for the other cores lowered by one |
| CoreMask.BitsWithCoreZero | kolla_deploy/roles/calculate_core_masks/library/calculate_pmd_core_masks.py:173 | the bit property below, for distinct ascending cores that start with core 0 |
| CoreMask.BitsWithoutCoreZero | kolla_deploy/roles/calculate_core_masks/library/calculate_pmd_core_masks.py:173 | the bit property below, for distinct ascending cores without core 0 |
| CoreMask.SumOfPowersBits | kolla_deploy/roles/calculate_core_masks/library/calculate_pmd_core_masks.py:173 | for distinct cores, bit `c` of the sum of `2 ** c` is set exactly when `c` is one of them |
| CoreMask.SumOfPowers | kolla_deploy/roles/calculate_core_masks/library/calculate_pmd_core_masks.py:173 | `sum(2 ** c for c in cores)` is 0 exactly when there are no cores |
| CoreMask.MaskValue | kolla_deploy/roles/calculate_core_masks/library/calculate_pmd_core_masks.py:173 | the integer of a set of cores: bit `c` is set exactly when core `c` is in the set, and it is 0 exactly for the empty set |
| CoreMask.HexOfZero | kolla_deploy/roles/calculate_core_masks/library/calculate_pmd_core_masks.py:173-176 | `hex(n)` is `"0x0"` exactly when `n` is 0 |
| CoreMask.MaskRoundTrip | kolla_deploy/roles/calculate_core_masks/library/calculate_pmd_core_masks.py:173 | reading back `hex()` of a set's mask value gives the set |
| CoreMaskExamples.SortedPair | kolla_deploy/roles/calculate_core_masks/library/calculate_pmd_core_masks.py:173 | the two-core set `{a, b}` with `a < b` in order is `[a, b]` |
| CoreMaskExamples.MaskOfOneAndTwo | kolla_deploy/roles/calculate_core_masks/library/calculate_pmd_core_masks.py:184-186 | `{1, 2}` is `"0x6"` |
| CoreMaskExamples.Pow2Of16 | kolla_deploy/roles/calculate_core_masks/library/calculate_pmd_core_masks.py:173 | `2 ** 16` |
| CoreMaskExamples.Pow2Of32 | kolla_deploy/roles/calculate_core_masks/library/calculate_pmd_core_masks.py:173 | `2 ** 32` |
| CoreMaskExamples.Pow2Of48 | kolla_deploy/roles/calculate_core_masks/library/calculate_pmd_core_masks.py:173 | `2 ** 48` |
| CoreMaskExamples.Pow2Of51 | kolla_deploy/roles/calculate_core_masks/library/calculate_pmd_core_masks.py:173 | `2 ** 51` |
| CoreMaskExamples.HighMaskValue | kolla_deploy/roles/calculate_core_masks/library/calculate_pmd_core_masks.py:181-183 | the value of `{51, 52}` is `0x18000000000000` |
| CoreMaskExamples.RenderShift | kolla_deploy/roles/calculate_core_masks/library/calculate_pmd_core_masks.py:173 | multiplying a positive number by 16 appends a hex `0` |
| CoreMaskExamples.RenderShiftTwice | kolla_deploy/roles/calculate_core_masks/library/calculate_pmd_core_masks.py:173 | multiplying a positive number by `0x100` appends two hex zeros |
| CoreMaskExamples.RenderLow | kolla_deploy/roles/calculate_core_masks/library/calculate_pmd_core_masks.py:173 | the hex digits of `0x180000` |
| CoreMaskExamples.RenderMiddle | kolla_deploy/roles/calculate_core_masks/library/calculate_pmd_core_masks.py:173 | the hex digits of `0x1800000000` |
| CoreMaskExamples.RenderHigh | kolla_deploy/roles/calculate_core_masks/library/calculate_pmd_core_masks.py:173 | the hex digits of `0x18000000000000` |
| CoreMaskExamples.HighMask | kolla_deploy/roles/calculate_core_masks/library/calculate_pmd_core_masks.py:173-177 | the mask of `{51, 52}` is `hex(0x18000000000000)` |
| CoreMaskExamples.MaskOfHighCores | kolla_deploy/roles/calculate_core_masks/library/calculate_pmd_core_masks.py:180-183 | `{51, 52}` is `"0x18000000000000"`: the mask is not limited to a machine word |
| CoreMaskExamples.MaskOfNoCores | kolla_deploy/roles/calculate_core_masks/library/calculate_pmd_core_masks.py:187-188 | the empty set is `""`, not `"0x0"` |
| CoreSelection.Elements | kolla_deploy/roles/calculate_core_masks/library/calculate_pmd_core_masks.py:117 | `set.update(list)` adds exactly the list's cores |
| CoreSelection.Contribution | kolla_deploy/roles/calculate_core_masks/library/calculate_pmd_core_masks.py:109-117 | what one list adds, by position; a function without a contract of its own, characterised by `ContributionCovers` and `SelectMembers` |
| CoreSelection.ContributionCovers | kolla_deploy/roles/calculate_core_masks/library/calculate_pmd_core_masks.py:109-117 | a list of more than four cores hands out exactly its own cores; a shorter list hands out none |
| CoreSelection.Select | kolla_deploy/roles/calculate_core_masks/library/calculate_pmd_core_masks.py:105-117 | the loop of `select_masked_cores` as a fold over the lists; a function without a contract of its own, characterised by `SelectMembers`, `SelectCovers` and `SelectBounds` |
| CoreSelection.SelectBounds | kolla_deploy/roles/calculate_core_masks/library/calculate_pmd_core_masks.py:105-116 | at most one OVS core and two PMD cores per list |
| CoreSelection.SelectMaskedCores | kolla_deploy/roles/calculate_core_masks/library/calculate_pmd_core_masks.py:91-118 | the loop that pops from a copy of each list leaves the three sets equal to the specification `Select` of all the lists, which the lemmas below characterise core by core |
| CoreSelection.SelectMembers | kolla_deploy/roles/calculate_core_masks/library/calculate_pmd_core_masks.py:105-117 | a core is an OVS core exactly when it is the second core of some list of more than four; a PMD core exactly when it is the third or fourth; unused exactly when it is the first, or the fifth or a later one |
| CoreSelection.OvsMembers | kolla_deploy/roles/calculate_core_masks/library/calculate_pmd_core_masks.py:105-113 | a core is in the OVS set exactly when it is the second core of some list of more than four |
| CoreSelection.PmdMembers | kolla_deploy/roles/calculate_core_masks/library/calculate_pmd_core_masks.py:105-116 | a core is in the PMD set exactly when it is the third or fourth core of some list of more than four |
| CoreSelection.UnusedMembers | kolla_deploy/roles/calculate_core_masks/library/calculate_pmd_core_masks.py:105-117 | a core is in the unused set exactly when it is the first core, or the fifth or a later one, of some list of more than four |
| CoreSelection.SmallListsIgnored | kolla_deploy/roles/calculate_core_masks/library/calculate_pmd_core_masks.py:108-109 | when no list has more than four cores, all three sets are empty |
| CoreSelection.SelectCovers | kolla_deploy/roles/calculate_core_masks/library/calculate_pmd_core_masks.py:109-117 | together the three sets hold exactly the cores of the lists of more than four cores |
| CoreSelection.EveryCoreHasRole | kolla_deploy/roles/calculate_core_masks/library/calculate_pmd_core_masks.py:110-117 | every core of a list of more than four cores gets the OVS, PMD or unused role |
| CoreSelection.UnusedCoreListed | kolla_deploy/roles/calculate_core_masks/library/calculate_pmd_core_masks.py:110-117 | a core that a list makes unused is a core of that list |
| CoreSelection.SelectDisjoint | kolla_deploy/roles/calculate_core_masks/library/calculate_pmd_core_masks.py:109-117 | for lists without repeated cores that share no core, no core is in two of the three sets |
| CoreSelection.CoreZeroNeverSelected | kolla_deploy/roles/calculate_core_masks/library/calculate_pmd_core_masks.py:110-113 | when every list is strictly ascending (sorted, no core repeated), core 0 is never an OVS or a PMD core: the first core of each list goes to "unused" |
| CoreSelection.OvsNotPmd | kolla_deploy/roles/calculate_core_masks/library/calculate_pmd_core_masks.py:113-116 | for lists without repeated cores that share no core, no core is both an OVS and a PMD core |
| CoreSelection.OvsNotUnused | kolla_deploy/roles/calculate_core_masks/library/calculate_pmd_core_masks.py:110-117 | under the same conditions, no core is both an OVS and an unused core |
| CoreSelection.PmdNotUnused | kolla_deploy/roles/calculate_core_masks/library/calculate_pmd_core_masks.py:110-117 | under the same conditions, no core is both a PMD and an unused core |
| CoreSelection.OnlyPosition | kolla_deploy/roles/calculate_core_masks/library/calculate_pmd_core_masks.py:105-107 | in lists without repeated cores that share no core, a core sits at one position of one list only |
| CoreSelection.SelectOrderIrrelevant | kolla_deploy/roles/calculate_core_masks/library/calculate_pmd_core_masks.py:105 | the sets depend only on which lists are given, not on their order (`itervalues` has no fixed order) or repetition |
| CoreSelection.MembersTransfer | kolla_deploy/roles/calculate_core_masks/library/calculate_pmd_core_masks.py:105 | every list of one input also being in another carries each core role over |
| CoreSelection.SelectCores | kolla_deploy/roles/calculate_core_masks/library/calculate_pmd_core_masks.py:48-57 | the three lists are strictly ascending and hold exactly the OVS, PMD and unused cores; each mask is `gen_core_mask` of the cores of its list, so it reads back as those cores and is `""` exactly when the list is empty |
| CoreSelection.CoresOfLists | kolla_deploy/roles/calculate_core_masks/library/calculate_pmd_core_masks.py:217 | the chained set holds exactly the cores of some list |
| CoreSelection.AllCores | kolla_deploy/roles/calculate_core_masks/library/calculate_pmd_core_masks.py:217 | strictly ascending, holding every core of every NUMA node and nothing else |
| CoreSelection.OtherNumaNodeCores | kolla_deploy/roles/calculate_core_masks/library/calculate_pmd_core_masks.py:232-237 | strictly ascending, holding exactly the cores of some NUMA node that are in no interface's CPU list |
| CoreSelection.OtherNumaNodeCoresCovered | kolla_deploy/roles/calculate_core_masks/library/calculate_pmd_core_masks.py:234-237 | when every node's CPU list is some interface's list, no other-node cores remain |
| CoreSelectionExamples.NoLists | kolla_deploy/roles/calculate_core_masks/library/calculate_pmd_core_masks.py:150-154 | no lists give three empty sets |
| CoreSelectionExamples.FiveCores | kolla_deploy/roles/calculate_core_masks/library/calculate_pmd_core_masks.py:164-168 | `range(5)` gives OVS `{1}`, PMD `{2, 3}`, unused `{0, 4}` |
| CoreSelectionExamples.FourCores | kolla_deploy/roles/calculate_core_masks/library/calculate_pmd_core_masks.py:157-161 | `range(4)` gives three empty sets |
| CoreSelectionExamples.SmallListBesideLarge | kolla_deploy/roles/calculate_core_masks/library/calculate_pmd_core_masks.py:105-109 | a short list next to a long one changes nothing |
| CoreSelectionExamples.SingleList | kolla_deploy/roles/calculate_core_masks/library/calculate_pmd_core_masks.py:105 | one list selects exactly its own contribution |
| CoreSelectionExamples.ElementsOfConcat | kolla_deploy/roles/calculate_core_masks/library/calculate_pmd_core_masks.py:117 | the cores of two lists joined are the cores of each |
| CoreSelectionExamples.FourteenCores | kolla_deploy/roles/calculate_core_masks/library/calculate_pmd_core_masks.py:141-147 | cores 14 to 27 give OVS `{15}`, PMD `{16, 17}`, and unused 14 and 18 to 27 |
| CoreSelectionExamples.TwoRangesSelected | kolla_deploy/roles/calculate_core_masks/library/calculate_pmd_core_masks.py:121-127 | cores 0 to 17 and 36 to 53 give OVS `{1}`, PMD `{2, 3}`, and unused 0, 4 to 17, 36 to 53 |
| CoreSelectionExamples.TwoThreadsPerCore | kolla_deploy/roles/calculate_core_masks/library/calculate_pmd_core_masks.py:121-138 | the same for the parsed cpulist `"0-17,36-53"`: unused is `set(xrange(54)) - set(xrange(18, 36)) - {1, 2, 3}` |
| CoreSelectionExamples.RepeatedCoreInTwoSets | kolla_deploy/roles/calculate_core_masks/library/calculate_pmd_core_masks.py:112-116 | a list that repeats core 1 puts it in both the OVS and the PMD set |
| CoreSelectionExamples.CoreZeroRepeated | kolla_deploy/roles/calculate_core_masks/library/calculate_pmd_core_masks.py:109-117 | the list `[0, 0, 1, 2, 3, 4, 5]` puts core 0 in both the OVS and the unused set |
| CoreSelectionExamples.CoreZeroUnsorted | kolla_deploy/roles/calculate_core_masks/library/calculate_pmd_core_masks.py:109-117 | the unsorted list `[3, 0, 1, 2, 4]` repeats no core and still puts core 0 in the OVS set, so `CoreZeroNeverSelected` needs the lists sorted |
| CoreSelectionExamples.CoreZeroGivenAway | kolla_deploy/roles/calculate_core_masks/library/calculate_pmd_core_masks.py:60-69 | the cpulist `"0,0-5"` parses to that list, so core 0 reaches the OVS set |
| CoreSelectionExamples.SortedSingleton | kolla_deploy/roles/calculate_core_masks/library/calculate_pmd_core_masks.py:51-53 | a one-core set sorted is that core |
| CoreSelectionExamples.MaskOfOne | kolla_deploy/roles/calculate_core_masks/library/calculate_pmd_core_masks.py:171-177 | `{1}` is `0x2` |
| CoreSelectionExamples.MaskOfTwoAndThree | kolla_deploy/roles/calculate_core_masks/library/calculate_pmd_core_masks.py:171-177 | `{2, 3}` is `0xc` |
| CoreSelectionExamples.MaskOfZeroAndFour | kolla_deploy/roles/calculate_core_masks/library/calculate_pmd_core_masks.py:171-177 | `{0, 4}` is `0x11` |
| CoreSelectionExamples.FiveCoresFacts | kolla_deploy/roles/calculate_core_masks/library/calculate_pmd_core_masks.py:48-57 | `select_cores([range(5)])` in full, masks included |
| NetworkMappings.Physnet | kolla_deploy/library/generate_network_mappings.py:47 | `physnet{i}` starts with `physnet`, the rest reads back as `i` with no leading zero, and it holds no comma or colon |
| NetworkMappings.PhysnetInjective | kolla_deploy/library/generate_network_mappings.py:47 | different numbers give different network names |
| NetworkMappings.PhysnetNames | kolla_deploy/library/generate_network_mappings.py:51 | `n` names, name `k` being `physnet{k+1}`, none holding a comma |
| NetworkMappings.Prefixed | kolla_deploy/library/generate_network_mappings.py:59 | one entry per item, the prefix followed by the item; no comma is added |
| NetworkMappings.Numbered | kolla_deploy/library/generate_network_mappings.py:47 | one entry per item, `physnet{k+1}:` followed by item `k`; no comma is added |
| NetworkMappings.NoCommasSorted | kolla_deploy/library/generate_network_mappings.py:55 | sorting adds no comma to any value |
| NetworkMappings.JoinedEntries | kolla_deploy/library/generate_network_mappings.py:46 | splitting the joined entries at commas gives the entries back, when there is at least one and none holds a comma |
| NetworkMappings.JoinNotEmpty | kolla_deploy/library/generate_network_mappings.py:46 | joining entries whose first one is not empty gives a non-empty string |
| NetworkMappings.DoOvsBridgeMapping | kolla_deploy/library/generate_network_mappings.py:45-47 | `""` exactly for no interfaces; otherwise there is one entry per interface, and entry `k` is `physnet{k+1}:br-` followed by the `k`-th interface in sorted order |
| NetworkMappings.DoPhysicalNetwork | kolla_deploy/library/generate_network_mappings.py:50-51 | `""` exactly for no values; otherwise `physnet1` to `physnet{n}` for `n` values, whatever their contents |
| NetworkMappings.DoVlanInterface | kolla_deploy/library/generate_network_mappings.py:54-55 | `""` for no interfaces; otherwise the entries are in ascending order and are the interfaces, repetitions included |
| NetworkMappings.DoOvsPhysicalBridge | kolla_deploy/library/generate_network_mappings.py:58-59 | `""` exactly for no interfaces; otherwise entry `k` is `br-` followed by the `k`-th interface in sorted order |
| NetworkMappings.DoM2VlanRanges | kolla_deploy/library/generate_network_mappings.py:62-64 | `""` exactly for no ranges; otherwise entry `k` is `physnet{k+1}:` followed by the `k`-th range in sorted order |
| NetworkMappings.DoOdlProviderMappings | kolla_deploy/library/generate_network_mappings.py:67-69 | always the same string as `do_ovs_bridge_mapping` |
| NetworkMappings.DoOdlProviderMappingsOvsVlan | kolla_deploy/library/generate_network_mappings.py:72-74 | always the same string as `do_m2_vlan_ranges` |
| NetworkMappings.BridgeMappingCombinesNetworksAndBridges | kolla_deploy/library/generate_network_mappings.py:45-59 | entry `k` of the bridge mapping is entry `k` of the network list, a colon, and entry `k` of the bridge list |
| NetworkMappings.BridgesNameInterfaces | kolla_deploy/library/generate_network_mappings.py:54-59 | entry `k` of the bridge list is `br-` and entry `k` of the interface list |
| NetworkMappings.FormattersIgnoreOrder | kolla_deploy/library/generate_network_mappings.py:45-64 | values that are a reordering of each other give the same strings from every formatter |
| NetworkMappings.Format | kolla_deploy/library/generate_network_mappings.py:77-85 | every formatter gives `""` for no values |
| NetworkMappings.TablesAgree | kolla_deploy/library/generate_network_mappings.py:77-95 | `MAPPINGS` and `PORT_ATTRIBUTE` have the same seven keys; `m2_vlan_ranges` reads `vlan_ranges`, and every other mapping reads `interface` |
| NetworkMappings.MappingsFormatters | kolla_deploy/library/generate_network_mappings.py:77-85 | each mapping name in `MAPPINGS` selects the formatter of the same name |
| NetworkMappings.MappingsKeys | kolla_deploy/library/generate_network_mappings.py:77-85 | the keys of `MAPPINGS` are the seven mapping names |
| NetworkMappings.PortAttributeKeys | kolla_deploy/library/generate_network_mappings.py:87-95 | the keys of `PORT_ATTRIBUTE` are the same seven names |
| NetworkMappings.SevenNames | kolla_deploy/library/generate_network_mappings.py:77-95 | the seven mapping names are distinct |
| NetworkMappings.FormatIgnoresOrder | kolla_deploy/library/generate_network_mappings.py:77-85 | no formatter depends on the order of its values |
| NetworkMappings.Attributes | kolla_deploy/library/generate_network_mappings.py:107-108 | one value per port, the port's attribute, in port order |
| NetworkMappings.GenerateMapping | kolla_deploy/library/generate_network_mappings.py:106-109 | an unknown mapping name fails; a port without the attribute fails; a known name whose ports all have the attribute succeeds with the formatter applied to the attributes in port order; no ports give `""` |
| NetworkMappings.AttributesRemove | kolla_deploy/library/generate_network_mappings.py:107-108 | dropping one port drops its attribute from the values |
| NetworkMappings.MultisetRemove | kolla_deploy/library/generate_network_mappings.py:107-108 | dropping one port removes one copy of it |
| NetworkMappings.AttributePresent | kolla_deploy/library/generate_network_mappings.py:107-108 | when every port has the attribute, so does every port of a reordering |
| NetworkMappings.AttributesPermutation | kolla_deploy/library/generate_network_mappings.py:107-108 | reordering the ports reorders the attributes, and every port still has the attribute |
| NetworkMappings.MatchFirst | kolla_deploy/library/generate_network_mappings.py:107-108 | the first port of a list has a place in any reordering of it, and removing it from both leaves reorderings of each other |
| NetworkMappings.AttributesStep | kolla_deploy/library/generate_network_mappings.py:107-108 | if the rest of the ports give reordered attributes, so do all of them |
| NetworkMappings.GenerateMappingIgnoresPortOrder | kolla_deploy/library/generate_network_mappings.py:106-109 | the result does not depend on the order of the tenant ports |
| NetworkMappingsExamples.SortTwo | kolla_deploy/library/generate_network_mappings.py:55 | `sorted(["eth1", "eth0"])` |
| NetworkMappingsExamples.PhysnetOne | kolla_deploy/library/generate_network_mappings.py:51 | `physnet1` and `physnet2` |
| NetworkMappingsExamples.TwoInterfacesSorted | kolla_deploy/library/generate_network_mappings.py:54-55 | `eth1, eth0` give `"eth0,eth1"` |
| NetworkMappingsExamples.TwoInterfacesJoined | kolla_deploy/library/generate_network_mappings.py:55 | two names joined with a comma |
| NetworkMappingsExamples.TwoBridgesJoined | kolla_deploy/library/generate_network_mappings.py:59 | two bridge names joined with a comma |
| NetworkMappingsExamples.TwoBridges | kolla_deploy/library/generate_network_mappings.py:59 | the `br-` names of `eth0` and `eth1` |
| NetworkMappingsExamples.TwoInterfacesBridges | kolla_deploy/library/generate_network_mappings.py:58-59 | `eth1, eth0` give `"br-eth0,br-eth1"` |
| NetworkMappingsExamples.TwoNames | kolla_deploy/library/generate_network_mappings.py:51 | the first two network names |
| NetworkMappingsExamples.TwoInterfacesNetworks | kolla_deploy/library/generate_network_mappings.py:50-51 | two values give `"physnet1,physnet2"` |
| NetworkMappingsExamples.TwoNumberedBridges | kolla_deploy/library/generate_network_mappings.py:47 | the numbered entries for `br-eth0` and `br-eth1` |
| NetworkMappingsExamples.TwoEntriesJoined | kolla_deploy/library/generate_network_mappings.py:46 | two entries joined with a comma |
| NetworkMappingsExamples.TwoInterfacesOdl | kolla_deploy/library/generate_network_mappings.py:67-69 | `eth1, eth0` give `"physnet1:br-eth0,physnet2:br-eth1"` |
| NetworkMappingsExamples.TwoInterfacesMapped | kolla_deploy/library/generate_network_mappings.py:45-47 | the same for `do_ovs_bridge_mapping` |
| NetworkMappingsExamples.OneNumberedRange | kolla_deploy/library/generate_network_mappings.py:64 | the numbered entry for one range |
| NetworkMappingsExamples.OneVlanRange | kolla_deploy/library/generate_network_mappings.py:62-64 | the range `1000:1010` gives `"physnet1:1000:1010"`, keeping its own colon |
| NetworkMappingsExamples.NoNetworks | kolla_deploy/library/generate_network_mappings.py:106-109 | no tenant ports give `""` for every mapping name |
| NetworkMappingsExamples.UnknownName | kolla_deploy/library/generate_network_mappings.py:107-109 | a name that is not in the tables fails |
| NetworkMappingsExamples.PortWithoutRanges | kolla_deploy/library/generate_network_mappings.py:107-109 | `m2_vlan_ranges` over a port with no `vlan_ranges` fails |
| Numerals.DigitValue | kolla_deploy/roles/calculate_core_masks/library/calculate_pmd_core_masks.py:63 | a digit character has a value below the base and is the character of that value |
| Numerals.Render | kolla_deploy/roles/calculate_core_masks/library/calculate_pmd_core_masks.py:173 | the digits `hex()` prints after `0x`: at least one, no leading zero for a positive number, each a digit of the base |
| Numerals.Parse | kolla_deploy/roles/calculate_core_masks/library/calculate_pmd_core_masks.py:63 | `int(s)` succeeds exactly when `s` is a non-empty string of digits of the base |
| Numerals.ParseRender | kolla_deploy/roles/calculate_core_masks/library/calculate_pmd_core_masks.py:173 | reading the printed digits back gives the number |
| Numerals.ParseLeadingZero | kolla_deploy/roles/calculate_core_masks/library/calculate_pmd_core_masks.py:63 | a leading zero does not change the value (`int("017") == 17`) |
| Numerals.ParseCanonical | kolla_deploy/roles/calculate_core_masks/library/calculate_pmd_core_masks.py:63 | a numeral without a leading zero is the one `Render` prints for its value, so with `ParseRender` and `ParseLeadingZero` every digit string reads as the value of its canonical form |
| Numerals.RenderInjective | kolla_deploy/roles/calculate_core_masks/library/calculate_pmd_core_masks.py:173 | different numbers print differently |
| Numerals.Decimal | kolla_deploy/library/generate_network_mappings.py:47 | `str(i)`: decimal digits that read back as `i`, with no leading zero: `0` for 0 |
| Numerals.DecimalHasOnlyDigits | kolla_deploy/library/generate_network_mappings.py:47 | decimal digits are `0` to `9` only |
| Text.Join | kolla_deploy/library/generate_network_mappings.py:46 | `sep.join(parts)` starts with the first part, and the separator follows it when there are two parts or more |
| Text.Split | kolla_deploy/roles/calculate_core_masks/library/calculate_pmd_core_masks.py:62 | `str.split` gives at least one part, no part holds the separator, and joining the parts gives the string back |
| Text.SplitJoin | kolla_deploy/roles/calculate_core_masks/library/calculate_pmd_core_masks.py:62 | splitting joined parts that hold no separator gives the parts back |
| Text.SplitNoSeparator | kolla_deploy/roles/calculate_core_masks/library/calculate_pmd_core_masks.py:62 | a string without the separator splits into itself alone |
| Text.SplitAfterPrefix | kolla_deploy/roles/calculate_core_masks/library/calculate_pmd_core_masks.py:62 | splitting `p + sep + t`, with no separator in `p`, gives `p` and then the parts of `t` |
| Text.LexLe | kolla_deploy/library/generate_network_mappings.py:55 | Python's `<=` on strings: a prefix is `<=` the string, and the first characters are in order |
| Text.LexLeReflexive | kolla_deploy/library/generate_network_mappings.py:55 | every string is `<=` itself |
| Text.LexLeTotal | kolla_deploy/library/generate_network_mappings.py:55 | any two strings are ordered one way or the other |
| Text.LexLeTransitive | kolla_deploy/library/generate_network_mappings.py:55 | the string order is transitive |
| Text.LexLeAntisymmetric | kolla_deploy/library/generate_network_mappings.py:55 | two strings each `<=` the other are equal |
| Sorting.InsertNat | kolla_deploy/roles/calculate_core_masks/library/calculate_pmd_core_masks.py:67 | inserting into an ascending list keeps it ascending and adds exactly the one element |
| Sorting.SortNats | kolla_deploy/roles/calculate_core_masks/library/calculate_pmd_core_masks.py:67 | `sorted()` on integers is ascending and a permutation of its input |
| Sorting.SortNatsAscending | kolla_deploy/roles/calculate_core_masks/library/calculate_pmd_core_masks.py:67 | an ascending list is its own sorted form |
| Sorting.InsertNatAtEnd | kolla_deploy/roles/calculate_core_masks/library/calculate_pmd_core_masks.py:67 | an element no smaller than any in the list goes at the end |
| Sorting.AscendingUnique | kolla_deploy/roles/calculate_core_masks/library/calculate_pmd_core_masks.py:67 | two ascending permutations of each other are the same list |
| Sorting.MinOf | kolla_deploy/roles/calculate_core_masks/library/calculate_pmd_core_masks.py:51-53 | the least element of a non-empty set |
| Sorting.SortedSet | kolla_deploy/roles/calculate_core_masks/library/calculate_pmd_core_masks.py:51-53 | `sorted()` on a set is strictly ascending, holds exactly the set's elements, and has its size |
| Sorting.StrictlyAscendingUnique | kolla_deploy/roles/calculate_core_masks/library/calculate_pmd_core_masks.py:51-53 | two strictly ascending lists with the same elements are the same list |
| Sorting.InsertString | kolla_deploy/library/generate_network_mappings.py:55 | inserting a string into an ascending list keeps it ascending and adds exactly that string |
| Sorting.SortStrings | kolla_deploy/library/generate_network_mappings.py:55 | `sorted()` on strings is ascending and a permutation of its input |
| Sorting.AscendingStringsUnique | kolla_deploy/library/generate_network_mappings.py:55 | two ascending lists of strings that are permutations of each other are the same list |
| Sorting.SortStringsPermutation | kolla_deploy/library/generate_network_mappings.py:55 | reordering the input does not change the output of `sorted()` |

## Left out

- `get_numa_nodes` (calculate_pmd_core_masks.py:191-201) reads sysfs. The
  NUMA node CPU lists are parameters of `CoreSelection.AllCores` and
  `CoreSelection.OtherNumaNodeCores` instead.
- The interface loop of `main` (calculate_pmd_core_masks.py:219-230) is I/O
  and is not modelled:
  - the `local_cpulist` file read;
  - the skip of names containing `bond`;
  - the `readlink` of the driver;
  - `fail_json`.
  The per-interface CPU lists are parameters instead.
- The virtio fallback at calculate_pmd_core_masks.py:228 is not modelled.
  It calls `",".join` on integers, which raises in Python, and it stores a
  string where a list of cores is expected.
- `main` of both modules is Ansible plumbing and is not modelled:
  - argument parsing;
  - `exit_json`;
  - the loop over the requested mappings at generate_network_mappings.py:106
    (only its body, one mapping, is `NetworkMappings.GenerateMapping`).
- `.rstrip('L')` at calculate_pmd_core_masks.py:173 only removes the `L`
  suffix of a Python 2 long. The integers of the model have no such suffix.
- `CpuList.SplitCpuList`: Python 2's `xrange` at calculate_pmd_core_masks.py:65
  raises OverflowError when a bound or the length of the range does not fit
  a C long (from `9223372036854775808` on a 64-bit host). The width depends
  on the host; the model's numbers are unbounded and it returns the cores.
- `CpuList.SplitCpuListFails`: for the same reason, it states failure only
  for a part that is not a numeral, not for a number too large for `xrange`.
  It also states failure for a part with surrounding whitespace or a leading
  `+` (such as `" 1"`), which Python's `int()` accepts; see the
  `CpuList.ParseInts` line below.
- `CpuList.ParseInts`: Python's `int()` also accepts surrounding whitespace
  and a leading `+`. The model accepts only non-empty strings of ASCII
  decimal digits. A `-` can never reach `int()`, because the tokens are
  split at hyphens first.
- Python's exception types (`ValueError`, `KeyError`) become `Err` values:
  - `CpuList.ParseError` for `split_cpu_list`;
  - `NetworkMappings.MappingError` for one mapping.
- Core numbers are natural numbers. A negative core cannot come out of
  `split_cpu_list`, and `2 ** c` for a negative `c` would not be an integer.
- `CoreSelection.SelectMaskedCores`: lists are values, so the copy at
  calculate_pmd_core_masks.py:107 and the pops become a local variable and
  slicing. That the caller's lists are left unchanged (the test at :130-138)
  holds because of this value semantics; it is not proved about a mutable
  list.
- `NetworkMappings.DoOvsBridgeMapping`: states its entries only for values without
  commas. A value holding a comma makes the joined string ambiguous, and the
  entries cannot be recovered from it.
- `NetworkMappings.DoVlanInterface`: states its entries only for values without
  commas. A value holding a comma makes the joined string ambiguous, and the
  entries cannot be recovered from it.
- `NetworkMappings.DoOvsPhysicalBridge`: states its entries only for values without
  commas. A value holding a comma makes the joined string ambiguous, and the
  entries cannot be recovered from it.
- `NetworkMappings.DoM2VlanRanges`: states its entries only for values without
  commas. A value holding a comma makes the joined string ambiguous, and the
  entries cannot be recovered from it.
- `NetworkMappings.DoOvsBridgeMapping`: in Python 2, `str.format` with a
  non-ASCII unicode value raises UnicodeEncodeError
  (generate_network_mappings.py:47). Values here are strings of characters
  with no encoding, so the model always gives a string.
- `NetworkMappings.DoOvsPhysicalBridge`: the same for `"br-{}".format`
  at generate_network_mappings.py:59.
- `NetworkMappings.DoM2VlanRanges`: the same at generate_network_mappings.py:64.
- `NetworkMappings.DoOdlProviderMappings`: the same at
  generate_network_mappings.py:69.
- `NetworkMappings.DoOdlProviderMappingsOvsVlan`: the same at
  generate_network_mappings.py:74.
- The value of a tenant port attribute is modelled as a string. The program
  passes on whatever Ansible supplies.

=== FILE: core_mask.dfy ===
/**
 * `gen_core_mask`: a set of cores as a CPU affinity mask, the hexadecimal
 * numeral of the sum of 2^c over the cores, written as Python's hex()
 * writes it ("0x" and lower-case digits). The empty set is written as the
 * empty string rather than "0x0", which the consumer of the mask refuses.
 */
module CoreMask {
  import opened Wrappers
  import opened Numerals
  import opened Sorting

  function Pow2(k: nat): (r: nat)
    ensures r >= 1
  {
    if k == 0 then 1 else 2 * Pow2(k - 1)
  }

  /** `sum(2 ** c for c in cores)` */
  function SumOfPowers(cores: seq<nat>): (r: nat)
    ensures r == 0 <==> |cores| == 0
  {
    if |cores| == 0 then 0 else Pow2(cores[0]) + SumOfPowers(cores[1..])
  }

  /** The integer a set of cores stands for; the order of the summation does not matter, ascending is used. */
  function MaskValue(cores: set<nat>): (r: nat)
    ensures forall c :: HasBit(r, c) <==> c in cores
    ensures r == 0 <==> cores == {}
  {
    var t := SortedSet(cores);
    forall c ensures HasBit(SumOfPowers(t), c) <==> c in cores {
      SumOfPowersBits(t, c);
    }
    SumOfPowers(t)
  }

  lemma {:induction false} Pow2Add(a: nat, b: nat)
    ensures Pow2(a + b) == Pow2(a) * Pow2(b)
  {
    if b > 0 {
      Pow2Add(a, b - 1);
    }
  }

  /** Python's `hex(n)` for a non-negative integer. */
  function Hex(n: nat): (s: string)
    ensures |s| >= 3 && s[..2] == "0x" && Parse(s[2..], 16) == Some(n)
    ensures n == 0 ==> s == "0x0"
    ensures n > 0 ==> s[2] != '0'
  {
    var digits := Render(n, 16);
    ParseRender(n, 16);
    assert ("0x" + digits)[2..] == digits;
    "0x" + digits
  }

  /** `gen_core_mask(cores)` */
  function GenCoreMask(cores: set<nat>): (mask: string)
    ensures mask == "" <==> cores == {}
    ensures mask != "" ==> |mask| >= 3 && mask[..2] == "0x" && mask[2] != '0'
    ensures mask != "" ==> forall i :: 2 <= i < |mask| ==> DigitValue(mask[i], 16).Some?
    ensures DecodeMask(mask) == Some(cores)
  {
    var mask := Hex(MaskValue(cores));
    HexOfZero(MaskValue(cores));
    MaskRoundTrip(cores, mask);
    if mask == "0x0" then "" else mask
  }

  /** A non-empty set is written exactly as hex() writes its mask value. */
  lemma GenCoreMaskOfCores(cores: set<nat>)
    requires cores != {}
    ensures GenCoreMask(cores) == Hex(MaskValue(cores))
  {
    HexOfZero(MaskValue(cores));
  }

  // ------------------------------------------------------------ reading a mask back

  /** Bit `c` of `n` is set. */
  predicate HasBit(n: nat, c: nat)
  {
    if c == 0 then n % 2 == 1 else HasBit(n / 2, c - 1)
  }

  /** The cores whose bits are set in `n`. */
  function CoresOf(n: nat): (cores: set<nat>)
    ensures forall c :: c in cores <==> HasBit(n, c)
  {
    forall c: nat | HasBit(n, c) ensures c < n {
      HasBitBound(n, c);
    }
    set c: nat | c < n && HasBit(n, c)
  }

  /** How a mask is read: "" is no core at all, otherwise bit c of the hexadecimal number after "0x" selects core c. */
  function DecodeMask(mask: string): Option<set<nat>>
  {
    if mask == "" then Some({})
    else if |mask| >= 2 && mask[..2] == "0x" then
      match Parse(mask[2..], 16)
      case Some(n) => Some(CoresOf(n))
      case None => None
    else None
  }

  lemma {:induction false} HasBitBound(n: nat, c: nat)
    requires HasBit(n, c)
    ensures c < n
  {
    if c > 0 {
      HasBitBound(n / 2, c - 1);
    }
  }

  /** Every core taken down by one; `t` must not hold core 0. */
  function Decrement(t: seq<nat>): (r: seq<nat>)
    requires forall i :: 0 <= i < |t| ==> t[i] >= 1
    ensures |r| == |t| && forall i :: 0 <= i < |t| ==> r[i] == t[i] - 1
  {
    seq(|t|, i requires 0 <= i < |t| => t[i] - 1)
  }

  lemma {:induction false} SumOfPowersHalves(t: seq<nat>)
    requires forall i :: 0 <= i < |t| ==> t[i] >= 1
    ensures SumOfPowers(t) == 2 * SumOfPowers(Decrement(t))
  {
    if |t| > 0 {
      SumOfPowersHalves(t[1..]);
      assert Decrement(t)[1..] == Decrement(t[1..]);
    }
  }

  lemma DecrementAscending(t: seq<nat>)
    requires StrictlyAscending(t)
    requires forall i :: 0 <= i < |t| ==> t[i] >= 1
    ensures StrictlyAscending(Decrement(t))
  {
  }

  lemma DecrementMembers(t: seq<nat>, c: nat)
    requires forall i :: 0 <= i < |t| ==> t[i] >= 1
    ensures c in Decrement(t) <==> c + 1 in t
  {
    var d := Decrement(t);
    if c in d {
      var i :| 0 <= i < |d| && d[i] == c;
      assert t[i] == c + 1;
    }
    if c + 1 in t {
      var i :| 0 <= i < |t| && t[i] == c + 1;
      assert d[i] == c;
    }
  }

  /** The bits of `2 * m` are those of `m` moved up by one. */
  lemma BitsOfDouble(m: nat, c: nat)
    ensures !HasBit(2 * m, 0)
    ensures c > 0 ==> (HasBit(2 * m, c) <==> HasBit(m, c - 1))
  {
    assert (2 * m) % 2 == 0 && (2 * m) / 2 == m;
  }

  /** The bits of `2 * m + 1` are those of `m` moved up by one, and bit 0. */
  lemma BitsOfDoublePlusOne(m: nat, c: nat)
    ensures HasBit(2 * m + 1, 0)
    ensures c > 0 ==> (HasBit(2 * m + 1, c) <==> HasBit(m, c - 1))
  {
    assert (2 * m + 1) % 2 == 1 && (2 * m + 1) / 2 == m;
  }

  /** For distinct cores listed in ascending order, bit c of their sum of powers is set exactly when c is listed. */
  lemma {:induction false} SumOfPowersBits(t: seq<nat>, c: nat)
    requires StrictlyAscending(t)
    ensures HasBit(SumOfPowers(t), c) <==> c in t
    decreases c, 1
  {
    if |t| > 0 && t[0] == 0 {
      BitsWithCoreZero(t, c);
    } else {
      BitsWithoutCoreZero(t, c);
    }
  }

  lemma {:induction false} BitsWithCoreZero(t: seq<nat>, c: nat)
    requires StrictlyAscending(t) && |t| > 0 && t[0] == 0
    ensures HasBit(SumOfPowers(t), c) <==> c in t
    decreases c, 0
  {
    var rest := t[1..];
    StrictlyAscendingTail(t);
    var m := SumOfPowersOdd(t);
    BitsOfDoublePlusOne(m, c);
    if c > 0 {
      DecrementAscending(rest);
      DecrementMembers(rest, c - 1);
      SumOfPowersBits(Decrement(rest), c - 1);
      MemberOfTail(t, c);
    } else {
      assert t[0] in t;
    }
  }

  lemma MemberOfTail(t: seq<nat>, c: nat)
    requires |t| > 0 && c != t[0]
    ensures c in t <==> c in t[1..]
  {
    if c in t {
      var k :| 0 <= k < |t| && t[k] == c;
      assert t[1..][k - 1] == c;
    }
  }

  /** With core 0 listed first, the sum is odd and the other cores, moved down by one, make up its half. */
  lemma SumOfPowersOdd(t: seq<nat>) returns (m: nat)
    requires StrictlyAscending(t) && |t| > 0 && t[0] == 0
    ensures forall i :: 0 <= i < |t[1..]| ==> t[1..][i] >= 1
    ensures m == SumOfPowers(Decrement(t[1..])) && SumOfPowers(t) == 2 * m + 1
  {
    var rest := t[1..];
    forall i | 0 <= i < |rest| ensures rest[i] >= 1 {
      assert t[0] < t[i + 1];
    }
    SumOfPowersHalves(rest);
    m := SumOfPowers(Decrement(rest));
  }

  lemma {:induction false} BitsWithoutCoreZero(t: seq<nat>, c: nat)
    requires StrictlyAscending(t) && (|t| == 0 || t[0] != 0)
    ensures HasBit(SumOfPowers(t), c) <==> c in t
    decreases c, 0
  {
    forall i | 0 <= i < |t| ensures t[i] >= 1 {
      assert t[0] <= t[i];
    }
    SumOfPowersHalves(t);
    var m := SumOfPowers(Decrement(t));
    BitsOfDouble(m, c);
    if c > 0 {
      DecrementAscending(t);
      DecrementMembers(t, c - 1);
      SumOfPowersBits(Decrement(t), c - 1);
    }
  }

  lemma HexOfZero(n: nat)
    ensures Hex(n) == "0x0" <==> n == 0
  {
    var digits := Render(n, 16);
    assert Hex(n) == "0x0" <==> digits == "0" by {
      assert Hex(n)[2..] == digits;
    }
    if n > 0 {
      assert digits[0] != '0';
    }
  }

  lemma MaskRoundTrip(cores: set<nat>, mask: string)
    requires mask == Hex(MaskValue(cores))
    ensures DecodeMask(mask) == Some(cores)
  {
    var n := MaskValue(cores);
    assert mask != "" && mask[..2] == "0x" && mask[2..] == Render(n, 16);
    ParseRender(n, 16);
    assert CoresOf(n) == cores;
  }
}

/** The masks of the tests of `gen_core_mask`. */
module CoreMaskExamples {
  import opened Numerals
  import opened Sorting
  import opened CoreMask

  lemma SortedPair(a: nat, b: nat)
    requires a < b
    ensures SortedSet({a, b}) == [a, b]
  {
    StrictlyAscendingUnique(SortedSet({a, b}), [a, b]);
  }

  /** {1, 2} is 0x6. */
  lemma MaskOfOneAndTwo()
    ensures GenCoreMask({1, 2}) == "0x6"
  {
    GenCoreMaskOfCores({1, 2});
    SortedPair(1, 2);
    assert MaskValue({1, 2}) == 6;
  }

  lemma Pow2Of16()
    ensures Pow2(16) == 0x10000
  {
    assert Pow2(8) == 0x100;
    Pow2Add(8, 8);
  }

  lemma Pow2Of32()
    ensures Pow2(32) == 0x100000000
  {
    Pow2Of16();
    Pow2Add(16, 16);
  }

  lemma Pow2Of48()
    ensures Pow2(48) == 0x1000000000000
  {
    Pow2Of16();
    Pow2Of32();
    Pow2Add(32, 16);
  }

  lemma Pow2Of51()
    ensures Pow2(51) == 0x8000000000000
  {
    Pow2Of48();
    assert Pow2(3) == 8;
    Pow2Add(48, 3);
  }

  lemma HighMaskValue()
    ensures MaskValue({51, 52}) == 0x18000000000000
  {
    SortedPair(51, 52);
    Pow2Of51();
    assert Pow2(52) == 2 * Pow2(51);
  }

  lemma RenderShift(n: nat)
    requires n > 0
    ensures Render(16 * n, 16) == Render(n, 16) + "0"
  {
    var m := 16 * n;
    assert m / 16 == n && m % 16 == 0;
    assert DigitChar(0) == '0';
    assert Render(m, 16) == Render(m / 16, 16) + [DigitChar(m % 16)];
  }

  /** Multiplying by 0x100 appends two hex zeros. */
  lemma RenderShiftTwice(n: nat, digits: string)
    requires n > 0 && Render(n, 16) == digits
    ensures Render(0x100 * n, 16) == digits + "00"
  {
    RenderShift(n);
    RenderShift(16 * n);
    assert 0x100 * n == 16 * (16 * n);
    assert digits + "0" + "0" == digits + "00";
  }

  lemma RenderLow()
    ensures Render(0x180000, 16) == "180000"
  {
    assert Render(0x18, 16) == "18";
    RenderShiftTwice(0x18, "18");
    assert "18" + "00" == "1800";
    RenderShiftTwice(0x1800, "1800");
    assert "1800" + "00" == "180000";
  }

  lemma RenderMiddle()
    ensures Render(0x1800000000, 16) == "1800000000"
  {
    RenderLow();
    RenderShiftTwice(0x180000, "180000");
    assert "180000" + "00" == "18000000";
    RenderShiftTwice(0x18000000, "18000000");
    assert "18000000" + "00" == "1800000000";
  }

  lemma RenderHigh()
    ensures Render(0x18000000000000, 16) == "18000000000000"
  {
    RenderMiddle();
    RenderShiftTwice(0x1800000000, "1800000000");
    assert "1800000000" + "00" == "180000000000";
    RenderShiftTwice(0x180000000000, "180000000000");
    assert "180000000000" + "00" == "18000000000000";
  }

  lemma HighMask()
    ensures GenCoreMask({51, 52}) == Hex(0x18000000000000)
  {
    GenCoreMaskOfCores({51, 52});
    HighMaskValue();
  }

  /** {51, 52} is 0x18000000000000: masks are not limited to a machine word. */
  lemma MaskOfHighCores()
    ensures GenCoreMask({51, 52}) == "0x" + "18000000000000"
  {
    HighMask();
    RenderHigh();
  }

  /** The empty set is the empty string, never "0x0". */
  lemma MaskOfNoCores()
    ensures GenCoreMask({}) == ""
  {
  }
}

=== FILE: core_selection.dfy ===
/**
 * The core reservation policy. `select_masked_cores` walks the CPU lists
 * (one per interface or NUMA node); from every list of more than four
 * cores it takes, in order from the front, one core for "unused", one for
 * OVS, two for PMD threads, and puts the rest in "unused". Lists of four
 * cores or fewer are skipped entirely. `select_cores` presents the three
 * sets sorted and as masks; the adapter also computes the cores of the NUMA
 * nodes that no interface is attached to.
 */
module CoreSelection {
  import opened Wrappers
  import opened Sorting
  import opened CoreMask

  /** The three sets `select_masked_cores` returns. */
  datatype Selection = Selection(ovs: set<nat>, pmd: set<nat>, unused: set<nat>)

  const NoCores: Selection := Selection({}, {}, {})

  function Elements(s: seq<nat>): (r: set<nat>)
    ensures forall c :: c in r <==> c in s
  {
    set c | c in s
  }

  /** `len(cpu_list) > 4`: only such lists give up cores. */
  predicate Partitioned(cpuList: seq<nat>)
  {
    |cpuList| > 4
  }

  /** What one list adds, by position: 0 and 4 onwards unused, 1 OVS, 2 and 3 PMD. */
  function Contribution(cpuList: seq<nat>): Selection
  {
    if Partitioned(cpuList) then
      Selection({cpuList[1]}, {cpuList[2], cpuList[3]}, {cpuList[0]} + Elements(cpuList[4..]))
    else NoCores
  }

  /** A list of more than four cores hands out each of its cores, and nothing else. */
  lemma ContributionCovers(cpuList: seq<nat>)
    ensures var r := Contribution(cpuList);
      r.ovs + r.pmd + r.unused == if Partitioned(cpuList) then Elements(cpuList) else {}
  {
    if Partitioned(cpuList) {
      var rest := cpuList[4..];
      assert cpuList == [cpuList[0], cpuList[1], cpuList[2], cpuList[3]] + rest;
    }
  }

  function Merge(a: Selection, b: Selection): Selection
  {
    Selection(a.ovs + b.ovs, a.pmd + b.pmd, a.unused + b.unused)
  }

  /** The sets accumulated over `cpuLists`, list by list. */
  function Select(cpuLists: seq<seq<nat>>): Selection
  {
    if |cpuLists| == 0 then NoCores
    else Merge(Select(cpuLists[..|cpuLists| - 1]), Contribution(cpuLists[|cpuLists| - 1]))
  }

  /** At most one OVS core and two PMD cores per list. */
  lemma {:induction false} SelectBounds(cpuLists: seq<seq<nat>>)
    ensures |Select(cpuLists).ovs| <= |cpuLists| && |Select(cpuLists).pmd| <= 2 * |cpuLists|
  {
    if |cpuLists| > 0 {
      var n := |cpuLists| - 1;
      SelectBounds(cpuLists[..n]);
      var a := Select(cpuLists[..n]);
      var b := Contribution(cpuLists[n]);
      assert |b.ovs| <= 1 && |b.pmd| <= 2;
      assert |a.ovs + b.ovs| <= |a.ovs| + |b.ovs|;
      assert |a.pmd + b.pmd| <= |a.pmd| + |b.pmd|;
    }
  }

  /**
   * `select_masked_cores(cpu_lists)`. Each list is copied before cores are
   * popped from the front of the copy; lists are values here, so the
   * caller's lists are left as they were.
   */
  method SelectMaskedCores(cpuLists: seq<seq<nat>>) returns (ovsCores: set<nat>, pmdCores: set<nat>, unusedCores: set<nat>)
    ensures Selection(ovsCores, pmdCores, unusedCores) == Select(cpuLists)
  {
    ovsCores, pmdCores, unusedCores := {}, {}, {};
    for i := 0 to |cpuLists|
      invariant Selection(ovsCores, pmdCores, unusedCores) == Select(cpuLists[..i])
    {
      var cpuList := cpuLists[i];
      if |cpuList| > 4 {
        unusedCores := unusedCores + {cpuList[0]};
        cpuList := cpuList[1..];
        ovsCores := ovsCores + {cpuList[0]};
        cpuList := cpuList[1..];
        pmdCores := pmdCores + {cpuList[0]};
        cpuList := cpuList[1..];
        pmdCores := pmdCores + {cpuList[0]};
        cpuList := cpuList[1..];
        unusedCores := unusedCores + Elements(cpuList);
      }
      assert cpuLists[..i + 1][..i] == cpuLists[..i];
    }
    assert cpuLists[..|cpuLists|] == cpuLists;
  }

  // ------------------------------------------------------------ the policy, core by core

  /** Core `c` is the second core of a list of more than four. */
  predicate IsOvsCore(cpuLists: seq<seq<nat>>, c: nat)
  {
    exists i :: 0 <= i < |cpuLists| && Partitioned(cpuLists[i]) && cpuLists[i][1] == c
  }

  /** Core `c` is the third or fourth core of a list of more than four. */
  predicate IsPmdCore(cpuLists: seq<seq<nat>>, c: nat)
  {
    exists i :: 0 <= i < |cpuLists| && Partitioned(cpuLists[i]) && (cpuLists[i][2] == c || cpuLists[i][3] == c)
  }

  /** Core `c` is the first core, or the fifth or a later one, of a list of more than four. */
  predicate IsUnusedCore(cpuLists: seq<seq<nat>>, c: nat)
  {
    exists i :: 0 <= i < |cpuLists| && Partitioned(cpuLists[i]) && (cpuLists[i][0] == c || c in cpuLists[i][4..])
  }

  /** The selection, core by core: which position of which list puts a core in each set. */
  lemma SelectMembers(cpuLists: seq<seq<nat>>, c: nat)
    ensures c in Select(cpuLists).ovs <==> IsOvsCore(cpuLists, c)
    ensures c in Select(cpuLists).pmd <==> IsPmdCore(cpuLists, c)
    ensures c in Select(cpuLists).unused <==> IsUnusedCore(cpuLists, c)
  {
    OvsMembers(cpuLists, c);
    PmdMembers(cpuLists, c);
    UnusedMembers(cpuLists, c);
  }

  lemma {:induction false} OvsMembers(cpuLists: seq<seq<nat>>, c: nat)
    ensures c in Select(cpuLists).ovs <==> IsOvsCore(cpuLists, c)
  {
    if |cpuLists| > 0 {
      var n := |cpuLists| - 1;
      var init := cpuLists[..n];
      OvsMembers(init, c);
      if IsOvsCore(cpuLists, c) {
        var i :| 0 <= i < |cpuLists| && Partitioned(cpuLists[i]) && cpuLists[i][1] == c;
        if i < n {
          assert init[i] == cpuLists[i];
        }
      }
      if IsOvsCore(init, c) {
        var i :| 0 <= i < |init| && Partitioned(init[i]) && init[i][1] == c;
        assert cpuLists[i] == init[i];
      }
    }
  }

  lemma {:induction false} PmdMembers(cpuLists: seq<seq<nat>>, c: nat)
    ensures c in Select(cpuLists).pmd <==> IsPmdCore(cpuLists, c)
  {
    if |cpuLists| > 0 {
      var n := |cpuLists| - 1;
      var init := cpuLists[..n];
      PmdMembers(init, c);
      if IsPmdCore(cpuLists, c) {
        var i :| 0 <= i < |cpuLists| && Partitioned(cpuLists[i]) && (cpuLists[i][2] == c || cpuLists[i][3] == c);
        if i < n {
          assert init[i] == cpuLists[i];
        }
      }
      if IsPmdCore(init, c) {
        var i :| 0 <= i < |init| && Partitioned(init[i]) && (init[i][2] == c || init[i][3] == c);
        assert cpuLists[i] == init[i];
      }
    }
  }

  lemma {:induction false} UnusedMembers(cpuLists: seq<seq<nat>>, c: nat)
    ensures c in Select(cpuLists).unused <==> IsUnusedCore(cpuLists, c)
  {
    if |cpuLists| > 0 {
      var n := |cpuLists| - 1;
      var init := cpuLists[..n];
      UnusedMembers(init, c);
      if IsUnusedCore(cpuLists, c) {
        var i :| 0 <= i < |cpuLists| && Partitioned(cpuLists[i]) && (cpuLists[i][0] == c || c in cpuLists[i][4..]);
        if i < n {
          assert init[i] == cpuLists[i];
        }
      }
      if IsUnusedCore(init, c) {
        var i :| 0 <= i < |init| && Partitioned(init[i]) && (init[i][0] == c || c in init[i][4..]);
        assert cpuLists[i] == init[i];
      }
    }
  }

  /** Lists of four cores or fewer add nothing to any of the three sets. */
  lemma SmallListsIgnored(cpuLists: seq<seq<nat>>)
    requires forall i :: 0 <= i < |cpuLists| ==> !Partitioned(cpuLists[i])
    ensures Select(cpuLists) == NoCores
  {
    forall c ensures c !in Select(cpuLists).ovs && c !in Select(cpuLists).pmd && c !in Select(cpuLists).unused {
      SelectMembers(cpuLists, c);
    }
  }

  /** Together the three sets hold exactly the cores of the lists of more than four cores. */
  lemma SelectCovers(cpuLists: seq<seq<nat>>, c: nat)
    ensures c in Select(cpuLists).ovs + Select(cpuLists).pmd + Select(cpuLists).unused
        <==> exists i :: 0 <= i < |cpuLists| && Partitioned(cpuLists[i]) && c in cpuLists[i]
  {
    SelectMembers(cpuLists, c);
    if exists i :: 0 <= i < |cpuLists| && Partitioned(cpuLists[i]) && c in cpuLists[i] {
      var i :| 0 <= i < |cpuLists| && Partitioned(cpuLists[i]) && c in cpuLists[i];
      EveryCoreHasRole(cpuLists, i, c);
    }
    if IsUnusedCore(cpuLists, c) {
      var i :| 0 <= i < |cpuLists| && Partitioned(cpuLists[i]) && (cpuLists[i][0] == c || c in cpuLists[i][4..]);
      UnusedCoreListed(cpuLists[i], c);
    }
  }

  /** Every core of a list of more than four cores gets one of the three roles. */
  lemma EveryCoreHasRole(cpuLists: seq<seq<nat>>, i: nat, c: nat)
    requires i < |cpuLists| && Partitioned(cpuLists[i]) && c in cpuLists[i]
    ensures IsOvsCore(cpuLists, c) || IsPmdCore(cpuLists, c) || IsUnusedCore(cpuLists, c)
  {
    var l := cpuLists[i];
    var k :| 0 <= k < |l| && l[k] == c;
    if k >= 4 {
      assert l[4..][k - 4] == c;
    }
  }

  lemma UnusedCoreListed(l: seq<nat>, c: nat)
    requires Partitioned(l) && (l[0] == c || c in l[4..])
    ensures c in l
  {
    if l[0] != c {
      var k :| 0 <= k < |l[4..]| && l[4..][k] == c;
      assert l[k + 4] == c;
    }
  }

  /** No core occurs twice in the list. */
  predicate Distinct(cpuList: seq<nat>)
  {
    forall j, k :: 0 <= j < k < |cpuList| ==> cpuList[j] != cpuList[k]
  }

  /** The lists share no core. */
  predicate Disjoint(cpuLists: seq<seq<nat>>)
  {
    forall i, j, c :: 0 <= i < j < |cpuLists| && c in cpuLists[i] ==> c !in cpuLists[j]
  }

  /** For lists without repeated cores that share no core, no core lands in two of the three sets. */
  lemma SelectDisjoint(cpuLists: seq<seq<nat>>, c: nat)
    requires forall i :: 0 <= i < |cpuLists| ==> Distinct(cpuLists[i])
    requires Disjoint(cpuLists)
    ensures !(c in Select(cpuLists).ovs && c in Select(cpuLists).pmd)
    ensures !(c in Select(cpuLists).ovs && c in Select(cpuLists).unused)
    ensures !(c in Select(cpuLists).pmd && c in Select(cpuLists).unused)
  {
    SelectMembers(cpuLists, c);
    OvsNotPmd(cpuLists, c);
    OvsNotUnused(cpuLists, c);
    PmdNotUnused(cpuLists, c);
  }

  lemma OvsNotPmd(cpuLists: seq<seq<nat>>, c: nat)
    requires forall i :: 0 <= i < |cpuLists| ==> Distinct(cpuLists[i])
    requires Disjoint(cpuLists)
    ensures !(IsOvsCore(cpuLists, c) && IsPmdCore(cpuLists, c))
  {
    if IsOvsCore(cpuLists, c) {
      var i :| 0 <= i < |cpuLists| && Partitioned(cpuLists[i]) && cpuLists[i][1] == c;
      OnlyPosition(cpuLists, i, 1, c);
    }
  }

  lemma OvsNotUnused(cpuLists: seq<seq<nat>>, c: nat)
    requires forall i :: 0 <= i < |cpuLists| ==> Distinct(cpuLists[i])
    requires Disjoint(cpuLists)
    ensures !(IsOvsCore(cpuLists, c) && IsUnusedCore(cpuLists, c))
  {
    if IsOvsCore(cpuLists, c) {
      var i :| 0 <= i < |cpuLists| && Partitioned(cpuLists[i]) && cpuLists[i][1] == c;
      OnlyPosition(cpuLists, i, 1, c);
    }
  }

  lemma PmdNotUnused(cpuLists: seq<seq<nat>>, c: nat)
    requires forall i :: 0 <= i < |cpuLists| ==> Distinct(cpuLists[i])
    requires Disjoint(cpuLists)
    ensures !(IsPmdCore(cpuLists, c) && IsUnusedCore(cpuLists, c))
  {
    if IsPmdCore(cpuLists, c) {
      var i :| 0 <= i < |cpuLists| && Partitioned(cpuLists[i]) && (cpuLists[i][2] == c || cpuLists[i][3] == c);
      var p := if cpuLists[i][2] == c then 2 else 3;
      OnlyPosition(cpuLists, i, p, c);
    }
  }

  /** In lists without repeated cores that share no core, a core has at most one place. */
  lemma OnlyPosition(cpuLists: seq<seq<nat>>, i: nat, p: nat, c: nat)
    requires forall i :: 0 <= i < |cpuLists| ==> Distinct(cpuLists[i])
    requires Disjoint(cpuLists)
    requires i < |cpuLists| && p < |cpuLists[i]| && cpuLists[i][p] == c
    ensures forall j, q :: 0 <= j < |cpuLists| && 0 <= q < |cpuLists[j]| && cpuLists[j][q] == c ==> j == i && q == p
  {
    forall j, q | 0 <= j < |cpuLists| && 0 <= q < |cpuLists[j]| && cpuLists[j][q] == c
      ensures j == i && q == p
    {
      assert cpuLists[i][p] in cpuLists[i] && cpuLists[j][q] in cpuLists[j];
      if j < i || i < j {
        assert false;
      }
    }
  }

  /**
   * The first core of a list goes to "unused", so that core 0 is never
   * handed to OVS or PMD, as long as every list is strictly ascending
   * (sorted, with no core repeated).
   */
  lemma CoreZeroNeverSelected(cpuLists: seq<seq<nat>>)
    requires forall i :: 0 <= i < |cpuLists| ==> StrictlyAscending(cpuLists[i])
    ensures 0 !in Select(cpuLists).ovs && 0 !in Select(cpuLists).pmd
  {
    SelectMembers(cpuLists, 0);
    forall i | 0 <= i < |cpuLists| && Partitioned(cpuLists[i])
      ensures cpuLists[i][1] > 0 && cpuLists[i][2] > 0 && cpuLists[i][3] > 0
    {
      assert cpuLists[i][0] < cpuLists[i][1] < cpuLists[i][2] < cpuLists[i][3];
    }
  }

  /** The selection depends on which lists are given, not on their order or repetition. */
  lemma SelectOrderIrrelevant(a: seq<seq<nat>>, b: seq<seq<nat>>)
    requires forall l :: l in a <==> l in b
    ensures Select(a) == Select(b)
  {
    forall c
      ensures c in Select(a).ovs <==> c in Select(b).ovs
      ensures c in Select(a).pmd <==> c in Select(b).pmd
      ensures c in Select(a).unused <==> c in Select(b).unused
    {
      SelectMembers(a, c);
      SelectMembers(b, c);
      MembersTransfer(a, b, c);
      MembersTransfer(b, a, c);
    }
  }

  lemma MembersTransfer(a: seq<seq<nat>>, b: seq<seq<nat>>, c: nat)
    requires forall l :: l in a ==> l in b
    ensures IsOvsCore(a, c) ==> IsOvsCore(b, c)
    ensures IsPmdCore(a, c) ==> IsPmdCore(b, c)
    ensures IsUnusedCore(a, c) ==> IsUnusedCore(b, c)
  {
    if IsOvsCore(a, c) {
      var i :| 0 <= i < |a| && Partitioned(a[i]) && a[i][1] == c;
      assert a[i] in a;
      var j :| 0 <= j < |b| && b[j] == a[i];
    }
    if IsPmdCore(a, c) {
      var i :| 0 <= i < |a| && Partitioned(a[i]) && (a[i][2] == c || a[i][3] == c);
      assert a[i] in a;
      var j :| 0 <= j < |b| && b[j] == a[i];
    }
    if IsUnusedCore(a, c) {
      var i :| 0 <= i < |a| && Partitioned(a[i]) && (a[i][0] == c || c in a[i][4..]);
      assert a[i] in a;
      var j :| 0 <= j < |b| && b[j] == a[i];
    }
  }

  // ------------------------------------------------------------ select_cores

  /** The record `select_cores` returns. */
  datatype CoreFacts = CoreFacts(
    ovsPmdCores: seq<nat>,
    ovsCores: seq<nat>,
    unusedCores: seq<nat>,
    ovsPmdCoreMask: string,
    ovsCoreMask: string,
    unusedCoreMask: string)

  /** `select_cores(cpu_lists)`: each set sorted, and each mask made from that same set. */
  function SelectCores(cpuLists: seq<seq<nat>>): (facts: CoreFacts)
    ensures StrictlyAscending(facts.ovsCores) && StrictlyAscending(facts.ovsPmdCores) && StrictlyAscending(facts.unusedCores)
    ensures forall c :: c in facts.ovsCores <==> IsOvsCore(cpuLists, c)
    ensures forall c :: c in facts.ovsPmdCores <==> IsPmdCore(cpuLists, c)
    ensures forall c :: c in facts.unusedCores <==> IsUnusedCore(cpuLists, c)
    ensures DecodeMask(facts.ovsCoreMask) == Some(Elements(facts.ovsCores))
    ensures DecodeMask(facts.ovsPmdCoreMask) == Some(Elements(facts.ovsPmdCores))
    ensures DecodeMask(facts.unusedCoreMask) == Some(Elements(facts.unusedCores))
    ensures facts.ovsCoreMask == "" <==> facts.ovsCores == []
    ensures facts.ovsPmdCoreMask == "" <==> facts.ovsPmdCores == []
    ensures facts.unusedCoreMask == "" <==> facts.unusedCores == []
    ensures facts.ovsCoreMask == GenCoreMask(Elements(facts.ovsCores))
    ensures facts.ovsPmdCoreMask == GenCoreMask(Elements(facts.ovsPmdCores))
    ensures facts.unusedCoreMask == GenCoreMask(Elements(facts.unusedCores))
  {
    var selection := Select(cpuLists);
    forall c ensures (c in selection.ovs <==> IsOvsCore(cpuLists, c))
      && (c in selection.pmd <==> IsPmdCore(cpuLists, c))
      && (c in selection.unused <==> IsUnusedCore(cpuLists, c))
    {
      SelectMembers(cpuLists, c);
    }
    assert Elements(SortedSet(selection.ovs)) == selection.ovs;
    assert Elements(SortedSet(selection.pmd)) == selection.pmd;
    assert Elements(SortedSet(selection.unused)) == selection.unused;
    CoreFacts(
      SortedSet(selection.pmd),
      SortedSet(selection.ovs),
      SortedSet(selection.unused),
      GenCoreMask(selection.pmd),
      GenCoreMask(selection.ovs),
      GenCoreMask(selection.unused))
  }

  // ------------------------------------------------------------ NUMA nodes and interfaces

  /** `set(itertools.chain.from_iterable(lists.itervalues()))` */
  function CoresOfLists(lists: map<string, seq<nat>>): (cores: set<nat>)
    ensures forall c :: c in cores <==> exists k :: k in lists && c in lists[k]
  {
    set k, c | k in lists && c in lists[k] :: c
  }

  /** `sorted(all_cores)`: every core of every NUMA node. */
  function AllCores(numaNodes: map<string, seq<nat>>): (all: seq<nat>)
    ensures StrictlyAscending(all)
    ensures forall c :: c in all <==> exists n :: n in numaNodes && c in numaNodes[n]
  {
    SortedSet(CoresOfLists(numaNodes))
  }

  /**
   * `sorted(all_cores - interface_cores)`: the cores of the NUMA nodes that
   * are not local to any of the interfaces.
   */
  function OtherNumaNodeCores(numaNodes: map<string, seq<nat>>, interfaceCpuLists: map<string, seq<nat>>): (other: seq<nat>)
    ensures StrictlyAscending(other)
    ensures forall c :: c in other <==>
      (exists n :: n in numaNodes && c in numaNodes[n]) &&
      !(exists intf :: intf in interfaceCpuLists && c in interfaceCpuLists[intf])
  {
    SortedSet(CoresOfLists(numaNodes) - CoresOfLists(interfaceCpuLists))
  }

  /** When every node's CPU list is the local list of some interface, no other-node core is left. */
  lemma OtherNumaNodeCoresCovered(numaNodes: map<string, seq<nat>>, interfaceCpuLists: map<string, seq<nat>>)
    requires forall n :: n in numaNodes ==> exists intf :: intf in interfaceCpuLists && interfaceCpuLists[intf] == numaNodes[n]
    ensures OtherNumaNodeCores(numaNodes, interfaceCpuLists) == []
  {
  }
}

/** The selection applied to small inputs. */
module CoreSelectionExamples {
  import opened Wrappers
  import opened CpuList
  import CpuListExamples
  import opened CoreMask
  import opened CoreSelection
  import opened Sorting
  import opened CoreMaskExamples

  /** Five cores: the first and the fifth stay unused, the second goes to OVS, the third and fourth to PMD. */
  lemma FiveCores()
    ensures Select([[0, 1, 2, 3, 4]]) == Selection({1}, {2, 3}, {0, 4})
  {
    var l: seq<nat> := [0, 1, 2, 3, 4];
    assert l[4..] == [4];
    assert Elements([4]) == {4};
  }

  /** No CPU lists at all: three empty sets. */
  lemma NoLists()
    ensures Select([]) == NoCores
  {
  }

  /** Four cores are not enough to take anything. */
  lemma FourCores()
    ensures Select([[0, 1, 2, 3]]) == NoCores
  {
  }

  /** A list that is not partitioned leaves the sets of the other lists as they are. */
  lemma SmallListBesideLarge()
    ensures Select([[0, 1, 2, 3, 4], [5, 6]]) == Selection({1}, {2, 3}, {0, 4})
  {
    var ls: seq<seq<nat>> := [[0, 1, 2, 3, 4], [5, 6]];
    assert ls[..1] == [[0, 1, 2, 3, 4]];
    FiveCores();
  }

  /** With a single list, the selection is that list's contribution. */
  lemma SingleList(l: seq<nat>)
    ensures Select([l]) == Contribution(l)
  {
    var ls := [l];
    assert ls[..0] == [];
  }

  lemma ElementsOfConcat(a: seq<nat>, b: seq<nat>)
    ensures Elements(a + b) == Elements(a) + Elements(b)
  {
  }

  /** The cores 14 to 27 of one NUMA node. */
  lemma FourteenCores()
    ensures Select([Range(14, 28)]) == Selection({15}, {16, 17}, {14} + Elements(Range(18, 28)))
  {
    SingleList(Range(14, 28));
    assert Range(14, 28)[4..] == Range(18, 28);
  }

  lemma TwoRangesSelected()
    ensures Select([Range(0, 18) + Range(36, 54)]) ==
      Selection({1}, {2, 3}, {0} + Elements(Range(4, 18)) + Elements(Range(36, 54)))
  {
    var l := Range(0, 18) + Range(36, 54);
    SingleList(l);
    assert l[4..] == Range(4, 18) + Range(36, 54);
    ElementsOfConcat(Range(4, 18), Range(36, 54));
  }

  /** The list parsed from "0-17,36-53", one node with two hardware threads per core. */
  lemma TwoThreadsPerCore()
    ensures SplitCpuList("0-17,36-53").Ok?
    ensures Select([SplitCpuList("0-17,36-53").value]) ==
      Selection({1}, {2, 3}, {0} + Elements(Range(4, 18)) + Elements(Range(36, 54)))
  {
    CpuListExamples.TwoRanges();
    TwoRangesSelected();
  }

  /** A list that repeats a core can put that core in two sets: distinct cores are needed for disjointness. */
  lemma RepeatedCoreInTwoSets()
    ensures 1 in Select([[0, 1, 1, 2, 3]]).ovs && 1 in Select([[0, 1, 1, 2, 3]]).pmd
  {
    SingleList([0, 1, 1, 2, 3]);
  }

  /** A list that repeats core 0 hands it to OVS as well as to "unused". */
  lemma CoreZeroRepeated()
    ensures Select([[0, 0, 1, 2, 3, 4, 5]]) == Selection({0}, {1, 2}, {0, 3, 4, 5})
  {
    var l: seq<nat> := [0, 0, 1, 2, 3, 4, 5];
    SingleList(l);
    assert l[4..] == [3, 4, 5];
    assert Elements([3, 4, 5]) == {3, 4, 5};
  }

  /** Without sorting, a list with no repeated core can still hand core 0 to OVS. */
  lemma CoreZeroUnsorted()
    ensures Select([[3, 0, 1, 2, 4]]) == Selection({0}, {1, 2}, {3, 4})
  {
    var l: seq<nat> := [3, 0, 1, 2, 4];
    SingleList(l);
    assert l[4..] == [4];
    assert Elements([4]) == {4};
  }

  /** The cpulist "0,0-5" parses to such a list, so core 0 reaches the OVS set. */
  lemma CoreZeroGivenAway()
    ensures SplitCpuList("0,0-5") == Ok([0, 0, 1, 2, 3, 4, 5])
    ensures 0 in Select([SplitCpuList("0,0-5").value]).ovs
  {
    CpuListExamples.RepeatedZero();
    CoreZeroRepeated();
  }

  lemma SortedSingleton(a: nat)
    ensures SortedSet({a}) == [a]
  {
    StrictlyAscendingUnique(SortedSet({a}), [a]);
  }

  lemma MaskOfOne()
    ensures GenCoreMask({1}) == "0x2"
  {
    GenCoreMaskOfCores({1});
    SortedSingleton(1);
    assert MaskValue({1}) == 2;
  }

  lemma MaskOfTwoAndThree()
    ensures GenCoreMask({2, 3}) == "0xc"
  {
    GenCoreMaskOfCores({2, 3});
    SortedPair(2, 3);
    assert MaskValue({2, 3}) == 12;
  }

  lemma MaskOfZeroAndFour()
    ensures GenCoreMask({0, 4}) == "0x11"
  {
    GenCoreMaskOfCores({0, 4});
    SortedPair(0, 4);
    assert MaskValue({0, 4}) == 17;
  }

  /** The record for five cores, with its masks. */
  lemma FiveCoresFacts()
    ensures SelectCores([[0, 1, 2, 3, 4]]) == CoreFacts([2, 3], [1], [0, 4], "0xc", "0x2", "0x11")
  {
    FiveCores();
    SortedSingleton(1);
    SortedPair(2, 3);
    SortedPair(0, 4);
    MaskOfOne();
    MaskOfTwoAndThree();
    MaskOfZeroAndFour();
  }
}

=== FILE: cpu_list.dfy ===
/**
 * The parser for the Linux compressed CPU-list syntax (`split_cpu_list`),
 * e.g. "0-17,36-53": comma-separated tokens, each a core number `n` or an
 * inclusive range `low-high`. The parser keeps duplicates, expands a range
 * with `low > high` to nothing and, for a token with three or more
 * hyphen-separated numbers, keeps only the first one.
 */
module CpuList {
  import opened Wrappers
  import opened Numerals
  import opened Text
  import opened Sorting

  /** `int()` refused one hyphen-separated part of a token (Python's ValueError). */
  datatype ParseError = InvalidLiteral(text: string)

  /** `xrange(lo, hi)`: lo, lo + 1, ..., hi - 1, empty when lo >= hi. */
  function Range(lo: nat, hi: nat): (r: seq<nat>)
    ensures |r| == if lo < hi then hi - lo else 0
    ensures forall k :: 0 <= k < |r| ==> r[k] == lo + k
    decreases hi - lo
  {
    if lo < hi then [lo] + Range(lo + 1, hi) else []
  }

  /** `int(part)` for every part, failing on the first part that is not a decimal numeral. */
  function ParseInts(parts: seq<string>): (r: Result<seq<nat>, ParseError>)
    ensures r.Ok? <==> forall i :: 0 <= i < |parts| ==> Parse(parts[i], 10).Some?
    ensures r.Ok? ==> |r.value| == |parts|
    ensures r.Ok? ==> forall i :: 0 <= i < |parts| ==> Parse(parts[i], 10) == Some(r.value[i])
    ensures r.Err? ==> exists i :: 0 <= i < |parts| && Parse(parts[i], 10).None? && r.error == InvalidLiteral(parts[i])
  {
    if |parts| == 0 then Ok([])
    else
      match Parse(parts[0], 10)
      case None => Err(InvalidLiteral(parts[0]))
      case Some(n) =>
        match ParseInts(parts[1..])
        case Err(e) => Err(e)
        case Ok(ns) => Ok([n] + ns)
  }

  lemma {:induction false} ParseIntsOk(parts: seq<string>, ns: seq<nat>)
    requires |parts| == |ns|
    requires forall i :: 0 <= i < |parts| ==> Parse(parts[i], 10) == Some(ns[i])
    ensures ParseInts(parts) == Ok(ns)
  {
    if |parts| > 0 {
      ParseIntsOk(parts[1..], ns[1..]);
      assert ns == [ns[0]] + ns[1..];
    }
  }

  /** The numbers of one token: `[int(b) for b in token.split('-')]`; never empty. */
  function ParseBound(token: string): (r: Result<seq<nat>, ParseError>)
    ensures r.Ok? ==> |r.value| >= 1
  {
    ParseInts(Split(token, '-'))
  }

  /** `ParseBound` on every token, failing on the first token that fails. */
  function ParseTokens(tokens: seq<string>): (r: Result<seq<seq<nat>>, ParseError>)
    ensures r.Ok? <==> forall i :: 0 <= i < |tokens| ==> ParseBound(tokens[i]).Ok?
    ensures r.Ok? ==> |r.value| == |tokens|
    ensures r.Ok? ==> forall i :: 0 <= i < |tokens| ==> ParseBound(tokens[i]) == Ok(r.value[i])
  {
    if |tokens| == 0 then Ok([])
    else
      match ParseBound(tokens[0])
      case Err(e) => Err(e)
      case Ok(b) =>
        match ParseTokens(tokens[1..])
        case Err(e) => Err(e)
        case Ok(bs) => Ok([b] + bs)
  }

  lemma {:induction false} ParseTokensOk(tokens: seq<string>, bounds: seq<seq<nat>>)
    requires |tokens| == |bounds|
    requires forall i :: 0 <= i < |tokens| ==> ParseBound(tokens[i]) == Ok(bounds[i])
    ensures ParseTokens(tokens) == Ok(bounds)
  {
    if |tokens| > 0 {
      var rest, restBounds := tokens[1..], bounds[1..];
      assert ParseBound(tokens[0]) == Ok(bounds[0]);
      forall i | 0 <= i < |rest|
        ensures ParseBound(rest[i]) == Ok(restBounds[i])
      {
        assert rest[i] == tokens[i + 1] && restBounds[i] == bounds[i + 1];
      }
      ParseTokensOk(rest, restBounds);
      assert bounds == [bounds[0]] + restBounds;
    }
  }

  predicate WellFormed(bounds: seq<seq<nat>>)
  {
    forall i :: 0 <= i < |bounds| ==> |bounds[i]| >= 1
  }

  /** The inclusive upper end of a token: the second number of a two-number token, else the first. */
  function High(bound: seq<nat>): (r: nat)
    requires |bound| >= 1
    ensures r in bound
    ensures |bound| != 2 ==> r == bound[0]
  {
    if |bound| == 2 then bound[1] else bound[0]
  }

  /** `xrange(bound[0], bound[1] + 1 if len(bound) == 2 else bound[0] + 1)` */
  function Expand(bound: seq<nat>): (r: seq<nat>)
    requires |bound| >= 1
    ensures |r| == Size(bound)
    ensures forall k :: 0 <= k < |r| ==> Covers(bound, r[k])
  {
    Range(bound[0], High(bound) + 1)
  }

  /** `itertools.chain.from_iterable` over the expanded tokens. */
  function Chain(bounds: seq<seq<nat>>): (r: seq<nat>)
    requires WellFormed(bounds)
    ensures |r| == TotalSize(bounds)
  {
    if |bounds| == 0 then [] else Expand(bounds[0]) + Chain(bounds[1..])
  }

  /** `split_cpu_list(cpu_list)` */
  function SplitCpuList(cpuList: string): (r: Result<seq<nat>, ParseError>)
    ensures cpuList == "" ==> r == Ok([])
    ensures r.Ok? ==> Ascending(r.value)
  {
    if cpuList == "" then Ok([])
    else
      match ParseTokens(Split(cpuList, ','))
      case Err(e) => Err(e)
      case Ok(bounds) => Ok(SortNats(Chain(bounds)))
  }

  // ------------------------------------------------------------ what a token means

  /** Token `bound` stands for core `c`. */
  predicate Covers(bound: seq<nat>, c: nat)
    requires |bound| >= 1
  {
    bound[0] <= c <= High(bound)
  }

  /** The number of cores a token expands to; zero when its low end is above its high end. */
  function Size(bound: seq<nat>): nat
    requires |bound| >= 1
  {
    if bound[0] <= High(bound) then High(bound) - bound[0] + 1 else 0
  }

  function TotalSize(bounds: seq<seq<nat>>): nat
    requires WellFormed(bounds)
  {
    if |bounds| == 0 then 0 else Size(bounds[0]) + TotalSize(bounds[1..])
  }

  /** How many tokens stand for core `c`. */
  function Coverage(bounds: seq<seq<nat>>, c: nat): nat
    requires WellFormed(bounds)
  {
    if |bounds| == 0 then 0
    else (if Covers(bounds[0], c) then 1 else 0) + Coverage(bounds[1..], c)
  }

  lemma {:induction false} RangeMultiplicity(lo: nat, hi: nat, c: nat)
    ensures multiset(Range(lo, hi))[c] == if lo <= c < hi then 1 else 0
    decreases hi - lo
  {
    if lo < hi {
      var rest := Range(lo + 1, hi);
      RangeMultiplicity(lo + 1, hi, c);
      assert Range(lo, hi) == [lo] + rest;
      assert multiset(Range(lo, hi)) == multiset{lo} + multiset(rest);
    }
  }

  lemma {:induction false} ChainMultiplicity(bounds: seq<seq<nat>>, c: nat)
    requires WellFormed(bounds)
    ensures multiset(Chain(bounds))[c] == Coverage(bounds, c)
  {
    if |bounds| > 0 {
      ChainMultiplicity(bounds[1..], c);
      RangeMultiplicity(bounds[0][0], High(bounds[0]) + 1, c);
    }
  }

  lemma {:induction false} CoveragePositive(bounds: seq<seq<nat>>, c: nat)
    requires WellFormed(bounds)
    ensures Coverage(bounds, c) > 0 <==> exists i :: 0 <= i < |bounds| && Covers(bounds[i], c)
  {
    if |bounds| > 0 {
      CoveragePositive(bounds[1..], c);
      if Coverage(bounds[1..], c) > 0 {
        var i :| 0 <= i < |bounds[1..]| && Covers(bounds[1..][i], c);
        assert Covers(bounds[i + 1], c);
      }
      forall i | 1 <= i < |bounds| && Covers(bounds[i], c)
        ensures Coverage(bounds[1..], c) > 0
      {
        assert Covers(bounds[1..][i - 1], c);
      }
    }
  }

  /**
   * The meaning of a successful parse: the result is ascending, holds core
   * `c` exactly as many times as there are tokens standing for `c` (no
   * deduplication), and is as long as the tokens' sizes added up.
   */
  lemma SplitCpuListContents(cpuList: string, bounds: seq<seq<nat>>, c: nat)
    requires cpuList != ""
    requires ParseTokens(Split(cpuList, ',')) == Ok(bounds)
    ensures WellFormed(bounds)
    ensures SplitCpuList(cpuList).Ok?
    ensures multiset(SplitCpuList(cpuList).value)[c] == Coverage(bounds, c)
    ensures |SplitCpuList(cpuList).value| == TotalSize(bounds)
    ensures c in SplitCpuList(cpuList).value <==> exists i :: 0 <= i < |bounds| && Covers(bounds[i], c)
  {
    var tokens := Split(cpuList, ',');
    assert forall i :: 0 <= i < |bounds| ==> ParseBound(tokens[i]) == Ok(bounds[i]);
    var v := SplitCpuList(cpuList).value;
    ChainMultiplicity(bounds, c);
    CoveragePositive(bounds, c);
    assert |v| == |multiset(v)| == |multiset(Chain(bounds))|;
    assert c in v <==> c in multiset(v);
  }

  /** Every hyphen-separated part of every token is a decimal numeral. */
  predicate AllNumerals(tokens: seq<string>)
  {
    forall token, part :: token in tokens && part in Split(token, '-') ==> Parse(part, 10).Some?
  }

  lemma {:induction false} ParseTokensFails(tokens: seq<string>)
    ensures ParseTokens(tokens).Err? <==> !AllNumerals(tokens)
  {
    if ParseTokens(tokens).Err? {
      var i :| 0 <= i < |tokens| && ParseBound(tokens[i]).Err?;
      var parts := Split(tokens[i], '-');
      var j :| 0 <= j < |parts| && Parse(parts[j], 10).None?;
      assert tokens[i] in tokens && parts[j] in parts;
    } else {
      forall token, part | token in tokens && part in Split(token, '-')
        ensures Parse(part, 10).Some?
      {
        var i :| 0 <= i < |tokens| && tokens[i] == token;
        assert ParseBound(tokens[i]).Ok?;
        var parts := Split(token, '-');
        var j :| 0 <= j < |parts| && parts[j] == part;
      }
    }
  }

  /** The parse fails exactly when some part of some token is not a decimal numeral. */
  lemma SplitCpuListFails(cpuList: string)
    ensures SplitCpuList(cpuList).Err? <==> cpuList != "" && !AllNumerals(Split(cpuList, ','))
  {
    if cpuList != "" {
      ParseTokensFails(Split(cpuList, ','));
    }
  }
}

/** The behaviour of `split_cpu_list` on the inputs of its tests and on the corner cases. */
module CpuListExamples {
  import opened Wrappers
  import opened Numerals
  import opened Text
  import opened Sorting
  import opened CpuList

  /** A token made of two numerals separated by one hyphen. */
  lemma RangeToken(token: string, low: string, high: string, l: nat, h: nat)
    requires token == low + "-" + high
    requires '-' !in low && '-' !in high
    requires Parse(low, 10) == Some(l) && Parse(high, 10) == Some(h)
    ensures ParseBound(token) == Ok([l, h])
  {
    assert Join([low, high], '-') == token;
    SplitJoin([low, high], '-');
    ParseIntsOk([low, high], [l, h]);
  }

  lemma AscendingRanges(a: nat, b: nat, c: nat, d: nat)
    requires a <= b <= c
    ensures Ascending(Range(a, b) + Range(c, d))
  {
  }

  /** "14-27" is the cores 14 to 27. */
  lemma SingleRangeTokens()
    ensures ParseTokens(Split("14-27", ',')) == Ok([[14, 27]])
  {
    RangeToken("14-27", "14", "27", 14, 27);
    SplitNoSeparator("14-27", ',');
    ParseTokensOk(["14-27"], [[14, 27]]);
  }

  lemma SingleRange()
    ensures SplitCpuList("14-27") == Ok(Range(14, 28))
  {
    SingleRangeTokens();
    SingleRangeChain();
    SortNatsAscending(Range(14, 28));
  }

  lemma SingleRangeChain()
    ensures Chain([[14, 27]]) == Range(14, 28)
  {
    var bounds: seq<seq<nat>> := [[14, 27]];
    assert Chain(bounds) == Expand(bounds[0]) + Chain(bounds[1..]);
    assert bounds[1..] == [];
  }

  lemma RepeatedZeroSplit()
    ensures Split("0,0-5", ',') == ["0", "0-5"]
  {
    assert Join(["0", "0-5"], ',') == "0,0-5";
    SplitJoin(["0", "0-5"], ',');
  }

  lemma ZeroToken()
    ensures ParseBound("0") == Ok([0])
  {
    SplitNoSeparator("0", '-');
    ParseIntsOk(["0"], [0]);
  }

  lemma ZeroToFiveToken()
    ensures ParseBound("0-5") == Ok([0, 5])
  {
    RangeToken("0-5", "0", "5", 0, 5);
  }

  lemma RepeatedZeroTokens()
    ensures ParseTokens(Split("0,0-5", ',')) == Ok([[0], [0, 5]])
  {
    RepeatedZeroSplit();
    ZeroToken();
    ZeroToFiveToken();
    ParseTokensOk(["0", "0-5"], [[0], [0, 5]]);
  }

  lemma RepeatedZeroChain()
    ensures Chain([[0], [0, 5]]) == [0, 0, 1, 2, 3, 4, 5]
  {
    var bounds: seq<seq<nat>> := [[0], [0, 5]];
    assert Chain(bounds) == Expand(bounds[0]) + Chain(bounds[1..]);
    assert Chain(bounds[1..]) == Expand(bounds[1]);
    assert Range(0, 1) == [0];
    assert Range(0, 6) == [0, 1, 2, 3, 4, 5];
  }

  lemma RepeatedZeroSorted()
    ensures SortNats([0, 0, 1, 2, 3, 4, 5]) == [0, 0, 1, 2, 3, 4, 5]
  {
    var s: seq<nat> := [0, 0, 1, 2, 3, 4, 5];
    assert forall i :: 0 <= i < |s| ==> s[i] == if i == 0 then 0 else i - 1;
    SortNatsAscending(s);
  }

  /** "0,0-5" names core 0 twice, and both copies are kept. */
  lemma RepeatedZero()
    ensures SplitCpuList("0,0-5") == Ok([0, 0, 1, 2, 3, 4, 5])
  {
    RepeatedZeroTokens();
    RepeatedZeroChain();
    RepeatedZeroSorted();
  }

  lemma TwoRangesSplit()
    ensures Split("0-17,36-53", ',') == ["0-17", "36-53"]
  {
    assert Join(["0-17", "36-53"], ',') == "0-17,36-53";
    SplitJoin(["0-17", "36-53"], ',');
  }

  lemma LowToken()
    ensures ParseBound("0-17") == Ok([0, 17])
  {
    RangeToken("0-17", "0", "17", 0, 17);
  }

  lemma HighToken()
    ensures ParseBound("36-53") == Ok([36, 53])
  {
    RangeToken("36-53", "36", "53", 36, 53);
  }

  lemma TwoRangesTokens()
    ensures ParseTokens(Split("0-17,36-53", ',')) == Ok([[0, 17], [36, 53]])
  {
    var tokens := ["0-17", "36-53"];
    var bounds: seq<seq<nat>> := [[0, 17], [36, 53]];
    TwoRangesSplit();
    forall i | 0 <= i < |tokens|
      ensures ParseBound(tokens[i]) == Ok(bounds[i])
    {
      if i == 0 { LowToken(); } else { HighToken(); }
    }
    ParseTokensOk(tokens, bounds);
  }

  /** "0-17,36-53" is the cores 0 to 17 followed by 36 to 53. */
  lemma TwoRanges()
    ensures SplitCpuList("0-17,36-53") == Ok(Range(0, 18) + Range(36, 54))
  {
    TwoRangesTokens();
    var bounds: seq<seq<nat>> := [[0, 17], [36, 53]];
    assert Chain(bounds) == Expand(bounds[0]) + Chain(bounds[1..]);
    assert Chain(bounds[1..]) == Expand(bounds[1]);
    AscendingRanges(0, 18, 36, 54);
    SortNatsAscending(Range(0, 18) + Range(36, 54));
  }

  lemma OverlapSplit()
    ensures Split("0-3,2-5", ',') == ["0-3", "2-5"]
  {
    assert Join(["0-3", "2-5"], ',') == "0-3,2-5";
    SplitJoin(["0-3", "2-5"], ',');
  }

  lemma OverlapLowToken()
    ensures ParseBound("0-3") == Ok([0, 3])
  {
    RangeToken("0-3", "0", "3", 0, 3);
  }

  lemma OverlapHighToken()
    ensures ParseBound("2-5") == Ok([2, 5])
  {
    RangeToken("2-5", "2", "5", 2, 5);
  }

  lemma OverlapTokens()
    ensures ParseTokens(Split("0-3,2-5", ',')) == Ok([[0, 3], [2, 5]])
  {
    OverlapSplit();
    OverlapLowToken();
    OverlapHighToken();
    ParseTokensOk(["0-3", "2-5"], [[0, 3], [2, 5]]);
  }

  lemma OverlapCounts()
    ensures TotalSize([[0, 3], [2, 5]]) == 8
    ensures Coverage([[0, 3], [2, 5]], 2) == 2
  {
    var bounds: seq<seq<nat>> := [[0, 3], [2, 5]];
    assert bounds[1..] == [[2, 5]] && bounds[1..][1..] == [];
  }

  /** Overlapping tokens are not deduplicated: "0-3,2-5" has eight entries, core 2 twice. */
  lemma OverlapKept()
    ensures SplitCpuList("0-3,2-5").Ok?
    ensures |SplitCpuList("0-3,2-5").value| == 8
    ensures multiset(SplitCpuList("0-3,2-5").value)[2] == 2
  {
    OverlapTokens();
    SplitCpuListContents("0-3,2-5", [[0, 3], [2, 5]], 2);
    OverlapCounts();
  }

  /** A range whose low end is above its high end stands for no core at all. */
  lemma ReversedRange()
    ensures SplitCpuList("5-3") == Ok([])
  {
    RangeToken("5-3", "5", "3", 5, 3);
    SplitNoSeparator("5-3", ',');
    ParseTokensOk(["5-3"], [[5, 3]]);
  }

  lemma ThreeNumbersToken()
    ensures ParseBound("1-5-9") == Ok([1, 5, 9])
  {
    assert Join(["1", "5", "9"], '-') == "1-5-9";
    SplitJoin(["1", "5", "9"], '-');
    ParseIntsOk(["1", "5", "9"], [1, 5, 9]);
  }

  lemma ThreeNumbersParsed()
    ensures ParseTokens(Split("1-5-9", ',')) == Ok([[1, 5, 9]])
  {
    ThreeNumbersToken();
    SplitNoSeparator("1-5-9", ',');
    ParseTokensOk(["1-5-9"], [[1, 5, 9]]);
  }

  /** With three or more numbers in a token, only the first one is kept. */
  lemma ThreeNumbers()
    ensures SplitCpuList("1-5-9") == Ok([1])
  {
    ThreeNumbersParsed();
    var bounds: seq<seq<nat>> := [[1, 5, 9]];
    assert Chain(bounds) == Expand(bounds[0]) + Chain(bounds[1..]);
    assert Range(1, 2) == [1];
    assert SortNats([1]) == [1];
  }

  /** An empty token is refused by int(). */
  lemma EmptyToken()
    ensures SplitCpuList("1,,2") == Err(InvalidLiteral(""))
  {
    SplitJoin(["1", "", "2"], ',');
    SplitJoin(["1"], '-');
    SplitJoin([""], '-');
    ParseIntsOk(["1"], [1]);
  }
}

=== FILE: network_mappings.dfy ===
/**
 * The `local.conf` mapping strings built from the tenant networks. Each
 * formatter takes one attribute of every tenant port (the interface name,
 * or the VLAN range) and joins its entries with commas. The bridge,
 * VLAN-range and ODL formatters sort the values and number them
 * `physnet1:...`, `physnet2:...`; the VLAN-interface formatter only sorts;
 * the physical-bridge formatter sorts and prefixes `br-`; the
 * physical-network formatter only counts the values. Two tables name the
 * formatter and the port attribute for each mapping.
 */
module NetworkMappings {
  import opened Wrappers
  import opened Numerals
  import opened Text
  import opened Sorting

  /** No value holds the comma that separates the entries. */
  predicate NoCommas(items: seq<string>)
  {
    forall i :: 0 <= i < |items| ==> ',' !in items[i]
  }

  /** `"physnet{}".format(i)`: the name ends in `i` in decimal. */
  function Physnet(i: nat): (name: string)
    ensures |name| > 7 && name[..7] == "physnet"
    ensures Parse(name[7..], 10) == Some(i)
    ensures ',' !in name && ':' !in name
    ensures i == 0 ==> name == "physnet0"
    ensures i > 0 ==> name[7] != '0'
  {
    DecimalHasOnlyDigits(i);
    var name := "physnet" + Decimal(i);
    assert name[7..] == Decimal(i);
    name
  }

  /** Different numbers give different network names. */
  lemma PhysnetInjective(i: nat, j: nat)
    requires Physnet(i) == Physnet(j)
    ensures i == j
  {
    assert Parse(Physnet(i)[7..], 10) == Some(i);
  }

  /** `physnet1`, ..., `physnet{n}` */
  function PhysnetNames(n: nat): (names: seq<string>)
    ensures |names| == n && NoCommas(names)
    ensures forall k :: 0 <= k < n ==> names[k] == Physnet(k + 1)
  {
    seq(n, k requires 0 <= k => Physnet(k + 1))
  }

  /** Each value with `prefix` in front. */
  function Prefixed(prefix: string, items: seq<string>): (entries: seq<string>)
    ensures |entries| == |items|
    ensures forall k :: 0 <= k < |items| ==> entries[k] == prefix + items[k]
    ensures ',' !in prefix && NoCommas(items) ==> NoCommas(entries)
  {
    seq(|items|, k requires 0 <= k < |items| => prefix + items[k])
  }

  /** The `k`-th value (counting from 1) paired with `physnet{k}` as `physnet{k}:<value>`. */
  function Numbered(items: seq<string>): (entries: seq<string>)
    ensures |entries| == |items|
    ensures forall k :: 0 <= k < |items| ==> entries[k] == Physnet(k + 1) + ":" + items[k]
    ensures NoCommas(items) ==> NoCommas(entries)
  {
    seq(|items|, k requires 0 <= k < |items| => Physnet(k + 1) + ":" + items[k])
  }

  lemma NoCommasSorted(items: seq<string>)
    ensures NoCommas(items) ==> NoCommas(SortStrings(items))
  {
    var sorted := SortStrings(items);
    if NoCommas(items) {
      forall k | 0 <= k < |sorted| ensures ',' !in sorted[k] {
        assert sorted[k] in multiset(items);
      }
    }
  }

  /** The comma-separated entries come back out of the joined string. */
  lemma JoinedEntries(entries: seq<string>)
    ensures |entries| >= 1 && NoCommas(entries) ==> Split(Join(entries, ','), ',') == entries
  {
    if |entries| >= 1 && NoCommas(entries) {
      SplitJoin(entries, ',');
    }
  }

  // ------------------------------------------------------------ the seven formatters

  /** `do_ovs_bridge_mapping(seq)`: `physnet{k}:br-{intf}` for the `k`-th interface in sorted order. */
  function DoOvsBridgeMapping(interfaces: seq<string>): (r: string)
    ensures interfaces == [] <==> r == ""
    ensures interfaces != [] && NoCommas(interfaces) ==>
      |Split(r, ',')| == |interfaces| &&
      forall k :: 0 <= k < |interfaces| ==> Split(r, ',')[k] == Physnet(k + 1) + ":" + ("br-" + SortStrings(interfaces)[k])
  {
    var sorted := SortStrings(interfaces);
    var bridges := Prefixed("br-", sorted);
    var entries := Numbered(bridges);
    NoCommasSorted(interfaces);
    JoinedEntries(entries);
    assert interfaces != [] ==> Join(entries, ',') != "" by {
      if interfaces != [] {
        JoinNotEmpty(entries);
      }
    }
    Join(entries, ',')
  }

  /** The join of at least one entry that starts with a network name is not empty. */
  lemma JoinNotEmpty(entries: seq<string>)
    requires |entries| >= 1 && |entries[0]| > 0
    ensures Join(entries, ',') != ""
  {
  }

  /** `do_physical_network(seq)`: `physnet1,...,physnet{n}` for `n` values, whatever they are. */
  function DoPhysicalNetwork(interfaces: seq<string>): (r: string)
    ensures interfaces == [] <==> r == ""
    ensures interfaces != [] ==>
      |Split(r, ',')| == |interfaces| &&
      forall k :: 0 <= k < |interfaces| ==> Split(r, ',')[k] == Physnet(k + 1)
  {
    var names := PhysnetNames(|interfaces|);
    JoinedEntries(names);
    assert interfaces != [] ==> Join(names, ',') != "" by {
      if interfaces != [] {
        JoinNotEmpty(names);
      }
    }
    Join(names, ',')
  }

  /** `do_vlan_interface(seq)`: the interfaces in ascending order. */
  function DoVlanInterface(interfaces: seq<string>): (r: string)
    ensures interfaces == [] ==> r == ""
    ensures interfaces != [] && NoCommas(interfaces) ==>
      AscendingStrings(Split(r, ',')) && multiset(Split(r, ',')) == multiset(interfaces)
  {
    var sorted := SortStrings(interfaces);
    NoCommasSorted(interfaces);
    JoinedEntries(sorted);
    Join(sorted, ',')
  }

  /** `do_ovs_physical_bridge(seq)`: `br-{intf}` for each interface in sorted order. */
  function DoOvsPhysicalBridge(interfaces: seq<string>): (r: string)
    ensures interfaces == [] <==> r == ""
    ensures interfaces != [] && NoCommas(interfaces) ==>
      |Split(r, ',')| == |interfaces| &&
      forall k :: 0 <= k < |interfaces| ==> Split(r, ',')[k] == "br-" + SortStrings(interfaces)[k]
  {
    var sorted := SortStrings(interfaces);
    var entries := Prefixed("br-", sorted);
    NoCommasSorted(interfaces);
    JoinedEntries(entries);
    assert interfaces != [] ==> Join(entries, ',') != "" by {
      if interfaces != [] {
        JoinNotEmpty(entries);
      }
    }
    Join(entries, ',')
  }

  /** `do_m2_vlan_ranges(seq)`: `physnet{k}:{range}` for the `k`-th VLAN range in sorted order. */
  function DoM2VlanRanges(vlanRanges: seq<string>): (r: string)
    ensures vlanRanges == [] <==> r == ""
    ensures vlanRanges != [] && NoCommas(vlanRanges) ==>
      |Split(r, ',')| == |vlanRanges| &&
      forall k :: 0 <= k < |vlanRanges| ==> Split(r, ',')[k] == Physnet(k + 1) + ":" + SortStrings(vlanRanges)[k]
  {
    var sorted := SortStrings(vlanRanges);
    var entries := Numbered(sorted);
    NoCommasSorted(vlanRanges);
    JoinedEntries(entries);
    assert vlanRanges != [] ==> Join(entries, ',') != "" by {
      if vlanRanges != [] {
        JoinNotEmpty(entries);
      }
    }
    Join(entries, ',')
  }

  /** `do_odl_provider_mappings(seq)`: written out separately in the program, with the same body. */
  function DoOdlProviderMappings(interfaces: seq<string>): (r: string)
    ensures r == DoOvsBridgeMapping(interfaces)
  {
    Join(Numbered(Prefixed("br-", SortStrings(interfaces))), ',')
  }

  /** `do_odl_provider_mappings_ovs_vlan(seq)`: `physnet{k}:{intf}` for the `k`-th interface in sorted order. */
  function DoOdlProviderMappingsOvsVlan(interfaces: seq<string>): (r: string)
    ensures r == DoM2VlanRanges(interfaces)
  {
    Join(Numbered(SortStrings(interfaces)), ',')
  }

  // ------------------------------------------------------------ how the formatters relate

  /** Entry `k` of the bridge mapping is entry `k` of the network list, a colon, and entry `k` of the bridge list. */
  lemma BridgeMappingCombinesNetworksAndBridges(interfaces: seq<string>, k: nat)
    requires NoCommas(interfaces) && k < |interfaces|
    ensures Split(DoOvsBridgeMapping(interfaces), ',')[k] ==
      Split(DoPhysicalNetwork(interfaces), ',')[k] + ":" + Split(DoOvsPhysicalBridge(interfaces), ',')[k]
  {
    var sorted := SortStrings(interfaces);
  }

  /** Entry `k` of the bridge list is `br-` and entry `k` of the interface list. */
  lemma BridgesNameInterfaces(interfaces: seq<string>, k: nat)
    requires NoCommas(interfaces) && k < |interfaces|
    ensures |Split(DoVlanInterface(interfaces), ',')| == |interfaces|
    ensures Split(DoOvsPhysicalBridge(interfaces), ',')[k] == "br-" + Split(DoVlanInterface(interfaces), ',')[k]
  {
    var sorted := SortStrings(interfaces);
    NoCommasSorted(interfaces);
    JoinedEntries(sorted);
  }

  /** The formatters depend on which values they get, with repetitions, but not on their order. */
  lemma FormattersIgnoreOrder(a: seq<string>, b: seq<string>)
    requires multiset(a) == multiset(b)
    ensures DoOvsBridgeMapping(a) == DoOvsBridgeMapping(b)
    ensures DoPhysicalNetwork(a) == DoPhysicalNetwork(b)
    ensures DoVlanInterface(a) == DoVlanInterface(b)
    ensures DoOvsPhysicalBridge(a) == DoOvsPhysicalBridge(b)
    ensures DoM2VlanRanges(a) == DoM2VlanRanges(b)
  {
    SortStringsPermutation(a, b);
    assert |a| == |multiset(a)| == |multiset(b)| == |b|;
  }

  // ------------------------------------------------------------ the tables

  /** The formatter functions `MAPPINGS` refers to. */
  datatype Formatter =
    | OvsBridgeMapping
    | PhysicalNetwork
    | VlanInterface
    | OvsPhysicalBridge
    | M2VlanRanges
    | OdlProviderMappings
    | OdlProviderMappingsOvsVlan

  /** Applying a formatter to the values. */
  function Format(formatter: Formatter, values: seq<string>): (r: string)
    ensures values == [] ==> r == ""
  {
    match formatter
    case OvsBridgeMapping => DoOvsBridgeMapping(values)
    case PhysicalNetwork => DoPhysicalNetwork(values)
    case VlanInterface => DoVlanInterface(values)
    case OvsPhysicalBridge => DoOvsPhysicalBridge(values)
    case M2VlanRanges => DoM2VlanRanges(values)
    case OdlProviderMappings => DoOdlProviderMappings(values)
    case OdlProviderMappingsOvsVlan => DoOdlProviderMappingsOvsVlan(values)
  }

  /** `MAPPINGS`: the formatter for each mapping name. */
  const Mappings: map<string, Formatter> := map[
    "ovs_bridge_mapping" := OvsBridgeMapping,
    "physical_network" := PhysicalNetwork,
    "vlan_interface" := VlanInterface,
    "ovs_physical_bridge" := OvsPhysicalBridge,
    "m2_vlan_ranges" := M2VlanRanges,
    "odl_provider_mappings" := OdlProviderMappings,
    "odl_provider_mappings_ovs_vlan" := OdlProviderMappingsOvsVlan]

  /** `PORT_ATTRIBUTE`: the port attribute each mapping reads. */
  const PortAttribute: map<string, string> := map[
    "ovs_bridge_mapping" := "interface",
    "physical_network" := "interface",
    "vlan_interface" := "interface",
    "ovs_physical_bridge" := "interface",
    "m2_vlan_ranges" := "vlan_ranges",
    "odl_provider_mappings" := "interface",
    "odl_provider_mappings_ovs_vlan" := "interface"]

  /** Both tables name the same seven mappings; `m2_vlan_ranges` reads `vlan_ranges`, every other mapping `interface`. */
  lemma TablesAgree()
    ensures Mappings.Keys == PortAttribute.Keys && |Mappings| == 7
    ensures forall m :: m in PortAttribute ==> PortAttribute[m] == if m == "m2_vlan_ranges" then "vlan_ranges" else "interface"
  {
    MappingsKeys();
    PortAttributeKeys();
    SevenNames();
  }

  /** Each mapping name selects the formatter of the same name. */
  lemma MappingsFormatters()
    ensures Mappings["ovs_bridge_mapping"] == OvsBridgeMapping
    ensures Mappings["physical_network"] == PhysicalNetwork
    ensures Mappings["vlan_interface"] == VlanInterface
    ensures Mappings["ovs_physical_bridge"] == OvsPhysicalBridge
    ensures Mappings["m2_vlan_ranges"] == M2VlanRanges
    ensures Mappings["odl_provider_mappings"] == OdlProviderMappings
    ensures Mappings["odl_provider_mappings_ovs_vlan"] == OdlProviderMappingsOvsVlan
  {
  }

  /** The seven mapping names. */
  const MappingNames: set<string> := {
    "ovs_bridge_mapping", "physical_network", "vlan_interface", "ovs_physical_bridge",
    "m2_vlan_ranges", "odl_provider_mappings", "odl_provider_mappings_ovs_vlan"}

  lemma MappingsKeys()
    ensures Mappings.Keys == MappingNames
  {
  }

  lemma PortAttributeKeys()
    ensures PortAttribute.Keys == MappingNames
  {
  }

  lemma SevenNames()
    ensures |MappingNames| == 7
  {
  }

  /** No formatter depends on the order of its values. */
  lemma FormatIgnoresOrder(formatter: Formatter, a: seq<string>, b: seq<string>)
    requires multiset(a) == multiset(b)
    ensures Format(formatter, a) == Format(formatter, b)
  {
    FormattersIgnoreOrder(a, b);
  }

  // ------------------------------------------------------------ one mapping from the tenant ports

  /** A tenant port: its attributes by name. */
  type Port = map<string, string>

  datatype MappingError =
    | UnknownMapping(mapping: string)      // the name is not a key of the tables
    | MissingAttribute(attribute: string)  // some port lacks the attribute the mapping reads

  /** The attribute of every port, in port order. */
  function Attributes(ports: seq<Port>, attribute: string): (values: seq<string>)
    requires forall i :: 0 <= i < |ports| ==> attribute in ports[i]
    ensures |values| == |ports|
    ensures forall i :: 0 <= i < |ports| ==> values[i] == ports[i][attribute]
  {
    seq(|ports|, i requires 0 <= i < |ports| => ports[i][attribute])
  }

  /**
   * `MAPPINGS[mapping](port[PORT_ATTRIBUTE[mapping]] for port in ports)`:
   * the string for one mapping, or the lookup that fails.
   */
  function GenerateMapping(mapping: string, ports: seq<Port>): (r: Result<string, MappingError>)
    ensures mapping !in Mappings ==> r == Err(UnknownMapping(mapping))
    ensures mapping in Mappings && (exists i :: 0 <= i < |ports| && PortAttribute[mapping] !in ports[i]) ==>
      r == Err(MissingAttribute(PortAttribute[mapping]))
    ensures mapping in Mappings && ports == [] ==> r == Ok("")
    ensures r.Ok? ==> mapping in Mappings && forall i :: 0 <= i < |ports| ==> PortAttribute[mapping] in ports[i]
    ensures mapping in Mappings && (forall i :: 0 <= i < |ports| ==> PortAttribute[mapping] in ports[i]) ==>
      r == Ok(Format(Mappings[mapping], Attributes(ports, PortAttribute[mapping])))
  {
    TablesAgree();
    if mapping !in Mappings then Err(UnknownMapping(mapping))
    else
      var attribute := PortAttribute[mapping];
      if exists i :: 0 <= i < |ports| && attribute !in ports[i] then Err(MissingAttribute(attribute))
      else Ok(Format(Mappings[mapping], Attributes(ports, attribute)))
  }

  lemma AttributesRemove(b: seq<Port>, j: nat, attribute: string)
    requires j < |b|
    requires forall i :: 0 <= i < |b| ==> attribute in b[i]
    ensures multiset(Attributes(b, attribute)) ==
      multiset(Attributes(b[..j] + b[j + 1..], attribute)) + multiset{b[j][attribute]}
  {
    var values := Attributes(b, attribute);
    var rest := b[..j] + b[j + 1..];
    assert values == values[..j] + [values[j]] + values[j + 1..];
    assert Attributes(rest, attribute) == values[..j] + values[j + 1..];
  }

  lemma MultisetRemove(b: seq<Port>, j: nat)
    requires j < |b|
    ensures multiset(b[..j] + b[j + 1..]) == multiset(b) - multiset{b[j]}
  {
    assert b == b[..j] + [b[j]] + b[j + 1..];
  }

  /** A reordering of ports that all have the attribute are ports that all have it. */
  lemma AttributePresent(a: seq<Port>, b: seq<Port>, attribute: string)
    requires multiset(a) == multiset(b)
    requires forall i :: 0 <= i < |a| ==> attribute in a[i]
    ensures forall i :: 0 <= i < |b| ==> attribute in b[i]
  {
    forall i | 0 <= i < |b| ensures attribute in b[i] {
      assert b[i] in multiset(a);
    }
  }

  /** Reordering the ports reorders their attributes. */
  lemma {:induction false} AttributesPermutation(a: seq<Port>, b: seq<Port>, attribute: string)
    requires multiset(a) == multiset(b)
    requires forall i :: 0 <= i < |a| ==> attribute in a[i]
    ensures forall i :: 0 <= i < |b| ==> attribute in b[i]
    ensures multiset(Attributes(a, attribute)) == multiset(Attributes(b, attribute))
  {
    AttributePresent(a, b, attribute);
    if |a| > 0 {
      var j := MatchFirst(a, b);
      var rest := b[..j] + b[j + 1..];
      AttributesPermutation(a[1..], rest, attribute);
      AttributesStep(a, b, j, attribute);
    }
  }

  /** Where the first port of a sits in its reordering b, and what is left of both. */
  lemma MatchFirst(a: seq<Port>, b: seq<Port>) returns (j: nat)
    requires multiset(a) == multiset(b) && |a| > 0
    ensures j < |b| && b[j] == a[0]
    ensures multiset(a[1..]) == multiset(b[..j] + b[j + 1..])
  {
    assert a[0] in multiset(b);
    var k :| 0 <= k < |b| && b[k] == a[0];
    j := k;
    assert a == [a[0]] + a[1..];
    MultisetRemove(b, j);
  }

  lemma AttributesStep(a: seq<Port>, b: seq<Port>, j: nat, attribute: string)
    requires |a| > 0 && j < |b| && b[j] == a[0]
    requires forall i :: 0 <= i < |a| ==> attribute in a[i]
    requires forall i :: 0 <= i < |b| ==> attribute in b[i]
    requires multiset(Attributes(a[1..], attribute)) == multiset(Attributes(b[..j] + b[j + 1..], attribute))
    ensures multiset(Attributes(a, attribute)) == multiset(Attributes(b, attribute))
  {
    AttributesRemove(a, 0, attribute);
    AttributesRemove(b, j, attribute);
    assert a[..0] + a[1..] == a[1..];
  }

  /** The order in which the tenant ports are listed does not matter. */
  lemma GenerateMappingIgnoresPortOrder(mapping: string, a: seq<Port>, b: seq<Port>)
    requires multiset(a) == multiset(b)
    ensures GenerateMapping(mapping, a) == GenerateMapping(mapping, b)
  {
    if mapping in Mappings {
      var attribute := PortAttribute[mapping];
      if forall i :: 0 <= i < |a| ==> attribute in a[i] {
        AttributesPermutation(a, b, attribute);
        FormatIgnoresOrder(Mappings[mapping], Attributes(a, attribute), Attributes(b, attribute));
      } else {
        var i :| 0 <= i < |a| && attribute !in a[i];
        assert a[i] in multiset(b);
      }
    }
  }
}

/** The formatters applied to small inputs. */
module NetworkMappingsExamples {
  import opened Wrappers
  import Text
  import opened Sorting
  import opened NetworkMappings

  lemma SortTwo()
    ensures SortStrings(["eth1", "eth0"]) == ["eth0", "eth1"]
  {
  }

  lemma PhysnetOne()
    ensures Physnet(1) == "physnet1" && Physnet(2) == "physnet2"
  {
  }

  /** Two interfaces listed out of order. */
  lemma TwoInterfacesSorted()
    ensures DoVlanInterface(["eth1", "eth0"]) == "eth0,eth1"
  {
    SortTwo();
    TwoInterfacesJoined();
  }

  lemma TwoInterfacesJoined()
    ensures Text.Join(["eth0", "eth1"], ',') == "eth0,eth1"
  {
    assert Text.Join(["eth0", "eth1"], ',') == "eth0" + [','] + "eth1";
  }

  lemma TwoBridges()
    ensures Prefixed("br-", ["eth0", "eth1"]) == ["br-eth0", "br-eth1"]
  {
    assert "br-" + "eth0" == "br-eth0";
    assert "br-" + "eth1" == "br-eth1";
  }

  lemma TwoBridgesJoined()
    ensures Text.Join(["br-eth0", "br-eth1"], ',') == "br-eth0,br-eth1"
  {
    assert Text.Join(["br-eth0", "br-eth1"], ',') == "br-eth0" + [','] + "br-eth1";
  }

  lemma TwoInterfacesBridges()
    ensures DoOvsPhysicalBridge(["eth1", "eth0"]) == "br-eth0,br-eth1"
  {
    SortTwo();
    TwoBridges();
    TwoBridgesJoined();
  }

  lemma TwoNames()
    ensures PhysnetNames(2) == ["physnet1", "physnet2"]
  {
    PhysnetOne();
    assert PhysnetNames(2)[0] == "physnet1";
    assert PhysnetNames(2)[1] == "physnet2";
  }

  lemma TwoInterfacesNetworks()
    ensures DoPhysicalNetwork(["eth1", "eth0"]) == "physnet1,physnet2"
  {
    TwoNames();
    assert Text.Join(["physnet1", "physnet2"], ',') == "physnet1" + [','] + "physnet2";
  }

  lemma TwoNumberedBridges()
    ensures Numbered(["br-eth0", "br-eth1"]) == ["physnet1:br-eth0", "physnet2:br-eth1"]
  {
    PhysnetOne();
    assert "physnet1" + ":" + "br-eth0" == "physnet1:br-eth0";
    assert "physnet2" + ":" + "br-eth1" == "physnet2:br-eth1";
  }

  lemma TwoEntriesJoined()
    ensures Text.Join(["physnet1:br-eth0", "physnet2:br-eth1"], ',') == "physnet1:br-eth0,physnet2:br-eth1"
  {
    assert Text.Join(["physnet1:br-eth0", "physnet2:br-eth1"], ',') == "physnet1:br-eth0" + [','] + "physnet2:br-eth1";
  }

  lemma TwoInterfacesOdl()
    ensures DoOdlProviderMappings(["eth1", "eth0"]) == "physnet1:br-eth0,physnet2:br-eth1"
  {
    SortTwo();
    TwoBridges();
    TwoNumberedBridges();
    TwoEntriesJoined();
  }

  lemma TwoInterfacesMapped()
    ensures DoOvsBridgeMapping(["eth1", "eth0"]) == "physnet1:br-eth0,physnet2:br-eth1"
  {
    TwoInterfacesOdl();
  }

  lemma OneNumberedRange()
    ensures Numbered(["1000:1010"]) == ["physnet1:1000:1010"]
  {
    PhysnetOne();
    assert "physnet1" + ":" + "1000:1010" == "physnet1:1000:1010";
  }

  /** One VLAN range: its own colon stays in the entry. */
  lemma OneVlanRange()
    ensures DoM2VlanRanges(["1000:1010"]) == "physnet1:1000:1010"
  {
    OneNumberedRange();
  }

  /** No tenant networks: every mapping is the empty string. */
  lemma NoNetworks()
    ensures forall name | name in Mappings :: GenerateMapping(name, []) == Ok("")
  {
  }

  /** A mapping name the tables do not know. */
  lemma UnknownName()
    ensures GenerateMapping("bridge", [map["interface" := "eth0"]]) == Err(UnknownMapping("bridge"))
  {
  }

  /** A port without the attribute the mapping reads. */
  lemma PortWithoutRanges()
    ensures GenerateMapping("m2_vlan_ranges", [map["interface" := "eth0"]]) == Err(MissingAttribute("vlan_ranges"))
  {
    var p: Port := map["interface" := "eth0"];
    assert "vlan_ranges" !in p;
    assert [p][0] == p;
  }
}

=== FILE: numerals.dfy ===
/**
 * Positional numerals in bases 2 to 16, as Python renders them with str()
 * and hex() and reads them back with int(): digits are '0'-'9' then the
 * lower-case letters 'a'-'f', most significant digit first, no leading zeros.
 */
module Numerals {
  import opened Wrappers

  const DIGIT_CHARS: string := "0123456789abcdef"

  function DigitChar(d: nat): (c: char)
    requires d < 16
  {
    DIGIT_CHARS[d]
  }

  /** The value of digit character `c` in `base`, if it is a digit of that base. */
  function DigitValue(c: char, base: nat): (r: Option<nat>)
    requires 2 <= base <= 16
    ensures r.Some? ==> r.value < base && DigitChar(r.value) == c
  {
    if '0' <= c <= '9' && (c as int - '0' as int) < base then Some(c as int - '0' as int)
    else if 'a' <= c <= 'f' && (c as int - 'a' as int) + 10 < base then Some(c as int - 'a' as int + 10)
    else None
  }

  lemma DigitCharValue(d: nat, base: nat)
    requires 2 <= base <= 16 && d < base
    ensures DigitValue(DigitChar(d), base) == Some(d)
  {
  }

  lemma DivStep(n: nat, base: nat)
    requires 2 <= base <= n
    ensures 0 < n / base < n && n % base < base
    ensures n == (n / base) * base + n % base
  {
  }

  /** Canonical numeral of `n` in `base`: `str(n)` for base 10, `hex(n)` without "0x" for base 16. */
  function Render(n: nat, base: nat): (s: string)
    requires 2 <= base <= 16
    ensures |s| >= 1
    ensures n > 0 ==> s[0] != '0'
    ensures forall i :: 0 <= i < |s| ==> DigitValue(s[i], base).Some?
  {
    if n < base then [DigitChar(n)]
    else
      DivStep(n, base);
      DigitCharValue(n % base, base);
      Render(n / base, base) + [DigitChar(n % base)]
  }

  /** int(s, base) on a string of digits only: None unless `s` is a non-empty digit string. */
  function Parse(s: string, base: nat): (r: Option<nat>)
    requires 2 <= base <= 16
    ensures r.Some? <==> |s| >= 1 && forall i :: 0 <= i < |s| ==> DigitValue(s[i], base).Some?
  {
    if |s| == 0 then None
    else if |s| == 1 then DigitValue(s[0], base)
    else
      match (Parse(s[..|s| - 1], base), DigitValue(s[|s| - 1], base))
      case (Some(high), Some(low)) => Some(high * base + low)
      case _ => None
  }

  /** Reading a rendered numeral gives back the number. */
  lemma {:induction false} ParseRender(n: nat, base: nat)
    requires 2 <= base <= 16
    ensures Parse(Render(n, base), base) == Some(n)
  {
    if n < base {
      DigitCharValue(n, base);
    } else {
      var prefix := Render(n / base, base);
      var s := Render(n, base);
      DivStep(n, base);
      DigitCharValue(n % base, base);
      ParseRender(n / base, base);
      assert s == prefix + [DigitChar(n % base)];
      assert s[..|s| - 1] == prefix;
      assert DigitValue(s[|s| - 1], base) == Some(n % base);
    }
  }

  /** The value of a numeral of two or more digits, from its leading digits and its last one. */
  lemma ParseLast(s: string, base: nat)
    requires 2 <= base <= 16
    requires |s| > 1 && Parse(s, base).Some?
    ensures Parse(s[..|s| - 1], base).Some? && DigitValue(s[|s| - 1], base).Some?
    ensures Parse(s, base).value == Parse(s[..|s| - 1], base).value * base + DigitValue(s[|s| - 1], base).value
  {
  }

  /** A leading zero does not change the value: `int("017") == int("17")`. */
  lemma {:induction false} ParseLeadingZero(s: string, base: nat)
    requires 2 <= base <= 16
    requires Parse(s, base).Some?
    ensures Parse("0" + s, base) == Parse(s, base)
  {
    var t := "0" + s;
    assert DigitValue('0', base) == Some(0);
    if |s| == 1 {
      assert t[..1] == "0" && t[1] == s[0];
    } else {
      var init, last := s[..|s| - 1], s[|s| - 1];
      ParseLast(s, base);
      ParseLeadingZero(init, base);
      assert t[..|t| - 1] == "0" + init;
      assert t[|t| - 1] == last;
      ParseLast(t, base);
      calc {
        Parse(t, base).value;
        Parse("0" + init, base).value * base + DigitValue(last, base).value;
        Parse(init, base).value * base + DigitValue(last, base).value;
        Parse(s, base).value;
      }
    }
  }

  /** Multiplying by the same number keeps the order. */
  lemma MulMonotone(a: nat, b: nat, c: nat)
    requires a <= b
    ensures a * c <= b * c
  {
  }

  /** A number of two or more digits splits into its leading digits and its last one. */
  lemma DigitsOf(high: nat, low: nat, base: nat)
    requires 2 <= base && 0 < high && low < base
    ensures high * base + low >= base
    ensures (high * base + low) / base == high && (high * base + low) % base == low
  {
    MulMonotone(1, high, base);
    var n := high * base + low;
    var q, r := n / base, n % base;
    assert q * base + r == n;
    if q > high {
      MulMonotone(high + 1, q, base);
      assert false;
    } else if q < high {
      MulMonotone(q + 1, high, base);
      assert false;
    }
  }

  /** Every numeral without a leading zero is the one Render gives for its value. */
  lemma {:induction false} ParseCanonical(s: string, base: nat, n: nat)
    requires 2 <= base <= 16
    requires Parse(s, base) == Some(n)
    requires |s| == 1 || s[0] != '0'
    ensures Render(n, base) == s
  {
    if |s| == 1 {
      assert DigitValue(s[0], base) == Some(n);
      assert Render(n, base) == [DigitChar(n)];
    } else {
      var init, last := s[..|s| - 1], s[|s| - 1];
      ParseLast(s, base);
      var low, high := DigitValue(last, base).value, Parse(init, base).value;
      assert init[0] == s[0];
      ParseCanonical(init, base, high);
      assert Render(0, base) == "0";
      assert n == high * base + low;
      calc {
        Render(n, base);
        { RenderLast(high, low, base); }
        Render(high, base) + [DigitChar(low)];
        init + [last];
        { DropLast(s); }
        s;
      }
    }
  }

  lemma DropLast(s: string)
    requires |s| > 0
    ensures s[..|s| - 1] + [s[|s| - 1]] == s
  {
  }

  /** Appending a digit to the numeral of a positive number. */
  lemma RenderLast(high: nat, low: nat, base: nat)
    requires 2 <= base <= 16 && 0 < high && low < base
    ensures Render(high * base + low, base) == Render(high, base) + [DigitChar(low)]
  {
    DigitsOf(high, low, base);
  }

  /** A numeral of a positive number never starts with '0', so Render is the unique canonical form. */
  lemma {:induction false} RenderInjective(m: nat, n: nat, base: nat)
    requires 2 <= base <= 16
    requires Render(m, base) == Render(n, base)
    ensures m == n
  {
    ParseRender(m, base);
    ParseRender(n, base);
  }

  /** `str(n)` */
  function Decimal(n: nat): (s: string)
    ensures Parse(s, 10) == Some(n)
    ensures n == 0 ==> s == "0"
    ensures n > 0 ==> s[0] != '0'
  {
    ParseRender(n, 10);
    Render(n, 10)
  }

  lemma DecimalHasOnlyDigits(n: nat)
    ensures forall i :: 0 <= i < |Decimal(n)| ==> '0' <= Decimal(n)[i] <= '9'
  {
    var s := Decimal(n);
    forall i | 0 <= i < |s| ensures '0' <= s[i] <= '9' {
      assert DigitValue(s[i], 10).Some?;
    }
  }
}

=== FILE: sorting.dfy ===
/**
 * Python's `sorted(...)` on a list of integers, on a set of integers and on
 * a list of strings. Each result is characterised by being ordered and
 * having the same elements; lemmas show that this pins the result down.
 */
module Sorting {
  import opened Text

  // ---------------------------------------------------------------- integers

  predicate Ascending(s: seq<nat>)
  {
    forall i, j :: 0 <= i < j < |s| ==> s[i] <= s[j]
  }

  predicate StrictlyAscending(s: seq<nat>)
  {
    forall i, j :: 0 <= i < j < |s| ==> s[i] < s[j]
  }

  function InsertNat(x: nat, s: seq<nat>): (r: seq<nat>)
    requires Ascending(s)
    ensures Ascending(r)
    ensures multiset(r) == multiset(s) + multiset{x}
  {
    if |s| == 0 then [x]
    else if x <= s[0] then
      PrependLeast(x, s);
      [x] + s
    else
      var t := InsertNat(x, s[1..]);
      InsertNatBehind(x, s, t);
      [s[0]] + t
  }

  /** A value no greater than any element can go in front of an ascending list. */
  lemma PrependLeast(x: nat, s: seq<nat>)
    requires Ascending(s)
    requires forall k :: 0 <= k < |s| ==> x <= s[k]
    ensures Ascending([x] + s)
  {
    var r := [x] + s;
    forall i, j | 0 <= i < j < |r| ensures r[i] <= r[j] {
      assert r[j] == s[j - 1];
      if i > 0 {
        assert r[i] == s[i - 1];
      }
    }
  }

  lemma InsertNatBehind(x: nat, s: seq<nat>, t: seq<nat>)
    requires Ascending(s) && |s| > 0 && s[0] < x
    requires Ascending(t) && multiset(t) == multiset(s[1..]) + multiset{x}
    ensures Ascending([s[0]] + t)
    ensures multiset([s[0]] + t) == multiset(s) + multiset{x}
  {
    forall k | 0 <= k < |t| ensures s[0] <= t[k] {
      assert t[k] in multiset(t);
      if t[k] != x {
        assert t[k] in multiset(s[1..]);
        var m :| 0 <= m < |s[1..]| && s[1..][m] == t[k];
        assert s[m + 1] == t[k];
      }
    }
    PrependLeast(s[0], t);
    assert s == [s[0]] + s[1..];
  }

  /** `sorted(xs)` for a list of integers: duplicates are kept. */
  function SortNats(s: seq<nat>): (r: seq<nat>)
    ensures Ascending(r)
    ensures multiset(r) == multiset(s)
  {
    if |s| == 0 then []
    else
      assert s == s[..|s| - 1] + [s[|s| - 1]];
      InsertNat(s[|s| - 1], SortNats(s[..|s| - 1]))
  }

  /** Sorting a list that is already ascending leaves it as it is. */
  lemma {:induction false} SortNatsAscending(s: seq<nat>)
    requires Ascending(s)
    ensures SortNats(s) == s
  {
    if |s| > 0 {
      var init := s[..|s| - 1];
      SortNatsAscending(init);
      InsertNatAtEnd(s[|s| - 1], init);
      assert init + [s[|s| - 1]] == s;
    }
  }

  lemma {:induction false} InsertNatAtEnd(x: nat, s: seq<nat>)
    requires Ascending(s)
    requires forall i :: 0 <= i < |s| ==> s[i] <= x
    ensures InsertNat(x, s) == s + [x]
  {
    if |s| > 0 {
      if x <= s[0] {
        assert x == s[0];
        assert forall i :: 0 <= i < |s| ==> s[i] == x;
      } else {
        InsertNatAtEnd(x, s[1..]);
        assert s == [s[0]] + s[1..];
      }
    }
  }

  /** Two ascending lists holding the same multiset are the same list. */
  lemma {:induction false} AscendingUnique(a: seq<nat>, b: seq<nat>)
    requires Ascending(a) && Ascending(b)
    requires multiset(a) == multiset(b)
    ensures a == b
  {
    SameLength(a, b);
    if |a| > 0 {
      FirstsEqualNat(a, b);
      MultisetOfTail(a);
      MultisetOfTail(b);
      AscendingTail(a);
      AscendingTail(b);
      AscendingUnique(a[1..], b[1..]);
      ConsEqual(a, b);
    }
  }

  lemma SameLength<T>(a: seq<T>, b: seq<T>)
    requires multiset(a) == multiset(b)
    ensures |a| == |b|
  {
    assert |a| == |multiset(a)|;
    assert |b| == |multiset(b)|;
  }

  lemma ConsEqual<T>(a: seq<T>, b: seq<T>)
    requires |a| > 0 && |b| > 0 && a[0] == b[0] && a[1..] == b[1..]
    ensures a == b
  {
    assert a == [a[0]] + a[1..];
    assert b == [b[0]] + b[1..];
  }

  lemma FirstsEqualNat(a: seq<nat>, b: seq<nat>)
    requires Ascending(a) && Ascending(b) && |a| > 0 && |b| > 0
    requires multiset(a) == multiset(b)
    ensures a[0] == b[0]
  {
    assert a[0] in multiset(a) && b[0] in multiset(b);
    FirstIsLeastNat(a, b[0]);
    FirstIsLeastNat(b, a[0]);
  }

  lemma AscendingTail(s: seq<nat>)
    requires Ascending(s) && |s| > 0
    ensures Ascending(s[1..])
  {
  }

  lemma MultisetOfTail<T>(s: seq<T>)
    requires |s| > 0
    ensures multiset(s[1..]) == multiset(s) - multiset{s[0]}
  {
    assert s == [s[0]] + s[1..];
  }

  lemma FirstIsLeastNat(s: seq<nat>, x: nat)
    requires Ascending(s) && x in multiset(s)
    ensures s[0] <= x
  {
    var j :| 0 <= j < |s| && s[j] == x;
  }

  /** `m` is the least element of `s`. */
  predicate IsLeast(m: nat, s: set<nat>)
  {
    m in s && forall x :: x in s ==> m <= x
  }

  /** The least element of a non-empty finite set. */
  function MinOf(s: set<nat>): (m: nat)
    requires s != {}
    ensures m in s && forall x :: x in s ==> m <= x
  {
    MinExists(s);
    var m :| IsLeast(m, s);
    m
  }

  lemma {:induction false} MinExists(s: set<nat>)
    requires s != {}
    ensures exists m :: IsLeast(m, s)
  {
    var y :| y in s;
    if s == {y} {
      assert IsLeast(y, s);
    } else {
      var rest := s - {y};
      MinExists(rest);
      var m :| IsLeast(m, rest);
      LeastOfAddition(m, rest, y);
      assert rest + {y} == s;
    }
  }

  lemma LeastOfAddition(m: nat, rest: set<nat>, y: nat)
    requires IsLeast(m, rest)
    ensures IsLeast(if y < m then y else m, rest + {y})
  {
  }

  /** `sorted(s)` for a set of integers. */
  function SortedSet(s: set<nat>): (r: seq<nat>)
    ensures StrictlyAscending(r)
    ensures forall x :: x in r <==> x in s
    ensures |r| == |s|
    decreases |s|
  {
    if s == {} then []
    else
      var m := MinOf(s);
      [m] + SortedSet(s - {m})
  }

  /** Two strictly ascending lists with the same members are the same list. */
  lemma {:induction false} StrictlyAscendingUnique(a: seq<nat>, b: seq<nat>)
    requires StrictlyAscending(a) && StrictlyAscending(b)
    requires forall x :: x in a <==> x in b
    ensures a == b
  {
    if |a| == 0 || |b| == 0 {
      HasFirst(a);
      HasFirst(b);
    } else {
      assert a[0] in b && b[0] in a;
      assert a[0] == b[0];
      forall x ensures x in a[1..] <==> x in b[1..] {
        if x in a[1..] {
          assert x in b && x != b[0];
        }
        if x in b[1..] {
          assert x in a && x != a[0];
        }
      }
      StrictlyAscendingTail(a);
      StrictlyAscendingTail(b);
      StrictlyAscendingUnique(a[1..], b[1..]);
      assert a == [a[0]] + a[1..] && b == [b[0]] + b[1..];
    }
  }

  lemma StrictlyAscendingTail(s: seq<nat>)
    requires StrictlyAscending(s) && |s| > 0
    ensures StrictlyAscending(s[1..])
  {
  }

  lemma HasFirst(s: seq<nat>)
    ensures |s| == 0 || s[0] in s
  {
  }

  // ---------------------------------------------------------------- strings

  predicate AscendingStrings(s: seq<string>)
  {
    forall i, j :: 0 <= i < j < |s| ==> LexLe(s[i], s[j])
  }

  function InsertString(x: string, s: seq<string>): (r: seq<string>)
    requires AscendingStrings(s)
    ensures AscendingStrings(r)
    ensures multiset(r) == multiset(s) + multiset{x}
    ensures |r| == |s| + 1
  {
    if |s| == 0 then [x]
    else if LexLe(x, s[0]) then
      forall j | 0 <= j < |s| ensures LexLe(x, s[j]) {
        if j > 0 {
          LexLeTransitive(x, s[0], s[j]);
        }
      }
      PrependLeastString(x, s);
      [x] + s
    else
      LexLeTotal(x, s[0]);
      var t := InsertString(x, s[1..]);
      InsertStringBehind(x, s, t);
      [s[0]] + t
  }

  /** A string no greater than any element can go in front of an ascending list. */
  lemma PrependLeastString(x: string, s: seq<string>)
    requires AscendingStrings(s)
    requires forall k :: 0 <= k < |s| ==> LexLe(x, s[k])
    ensures AscendingStrings([x] + s)
  {
    var r := [x] + s;
    forall i, j | 0 <= i < j < |r| ensures LexLe(r[i], r[j]) {
      assert r[j] == s[j - 1];
      if i > 0 {
        assert r[i] == s[i - 1];
      }
    }
  }

  lemma InsertStringBehind(x: string, s: seq<string>, t: seq<string>)
    requires AscendingStrings(s) && |s| > 0 && LexLe(s[0], x)
    requires AscendingStrings(t) && multiset(t) == multiset(s[1..]) + multiset{x}
    ensures AscendingStrings([s[0]] + t)
    ensures multiset([s[0]] + t) == multiset(s) + multiset{x}
  {
    forall k | 0 <= k < |t| ensures LexLe(s[0], t[k]) {
      assert t[k] in multiset(t);
      if t[k] != x {
        assert t[k] in multiset(s[1..]);
        var m :| 0 <= m < |s[1..]| && s[1..][m] == t[k];
        assert s[m + 1] == t[k];
      }
    }
    PrependLeastString(s[0], t);
    assert s == [s[0]] + s[1..];
  }

  /** `sorted(xs)` for a list of strings. */
  function SortStrings(s: seq<string>): (r: seq<string>)
    ensures AscendingStrings(r)
    ensures multiset(r) == multiset(s)
    ensures |r| == |s|
  {
    if |s| == 0 then []
    else
      assert s == s[..|s| - 1] + [s[|s| - 1]];
      InsertString(s[|s| - 1], SortStrings(s[..|s| - 1]))
  }

  /** Two ascending lists of strings holding the same multiset are the same list. */
  lemma {:induction false} AscendingStringsUnique(a: seq<string>, b: seq<string>)
    requires AscendingStrings(a) && AscendingStrings(b)
    requires multiset(a) == multiset(b)
    ensures a == b
  {
    SameLength(a, b);
    if |a| > 0 {
      FirstsEqual(a, b);
      MultisetOfTail(a);
      MultisetOfTail(b);
      AscendingStringsTail(a);
      AscendingStringsTail(b);
      AscendingStringsUnique(a[1..], b[1..]);
      ConsEqual(a, b);
    }
  }

  lemma FirstsEqual(a: seq<string>, b: seq<string>)
    requires AscendingStrings(a) && AscendingStrings(b) && |a| > 0 && |b| > 0
    requires multiset(a) == multiset(b)
    ensures a[0] == b[0]
  {
    assert a[0] in multiset(a) && b[0] in multiset(b);
    FirstIsLeast(b, a[0]);
    FirstIsLeast(a, b[0]);
    LexLeAntisymmetric(a[0], b[0]);
  }

  lemma AscendingStringsTail(s: seq<string>)
    requires AscendingStrings(s) && |s| > 0
    ensures AscendingStrings(s[1..])
  {
  }

  lemma FirstIsLeast(s: seq<string>, x: string)
    requires AscendingStrings(s) && x in multiset(s)
    ensures LexLe(s[0], x)
  {
    var j :| 0 <= j < |s| && s[j] == x;
    if j == 0 {
      LexLeReflexive(x);
    }
  }

  /** `sorted` does not depend on the order of its input. */
  lemma SortStringsPermutation(a: seq<string>, b: seq<string>)
    requires multiset(a) == multiset(b)
    ensures SortStrings(a) == SortStrings(b)
  {
    AscendingStringsUnique(SortStrings(a), SortStrings(b));
  }
}

=== FILE: text.dfy ===
/**
 * The pieces of Python's `str` used by the core: `s.split(sep)` with a
 * one-character separator, `sep.join(parts)`, and the ordering `<=` on
 * strings (code point by code point, a proper prefix first).
 */
module Text {

  /** `sep.join(parts)` */
  function Join(parts: seq<string>, sep: char): (s: string)
    ensures |parts| >= 1 ==> parts[0] <= s
    ensures |parts| >= 2 ==> |s| > |parts[0]| && s[|parts[0]|] == sep
  {
    if |parts| == 0 then ""
    else if |parts| == 1 then parts[0]
    else parts[0] + [sep] + Join(parts[1..], sep)
  }

  /** `s.split(sep)`: the maximal runs between separators; always at least one part. */
  function Split(s: string, sep: char): (parts: seq<string>)
    ensures |parts| >= 1
    ensures forall i :: 0 <= i < |parts| ==> sep !in parts[i]
    ensures Join(parts, sep) == s
  {
    if |s| == 0 then [""]
    else
      var rest := Split(s[1..], sep);
      if s[0] == sep then
        assert [""] + rest == [""] + [rest[0]] + rest[1..];
        [""] + rest
      else
        var parts := [[s[0]] + rest[0]] + rest[1..];
        assert s == [s[0]] + s[1..];
        assert |rest| > 1 ==> parts[1..] == rest[1..];
        parts
  }

  /** Splitting a joined list gives the list back when no part holds the separator. */
  lemma {:induction false} SplitJoin(parts: seq<string>, sep: char)
    requires |parts| >= 1
    requires forall i :: 0 <= i < |parts| ==> sep !in parts[i]
    ensures Split(Join(parts, sep), sep) == parts
  {
    if |parts| == 1 {
      SplitNoSeparator(parts[0], sep);
    } else {
      var rest := Join(parts[1..], sep);
      assert Join(parts, sep) == parts[0] + [sep] + rest;
      SplitAfterPrefix(parts[0], sep, rest);
      SplitJoin(parts[1..], sep);
      assert parts == [parts[0]] + parts[1..];
    }
  }

  lemma {:induction false} SplitNoSeparator(s: string, sep: char)
    requires sep !in s
    ensures Split(s, sep) == [s]
  {
    if |s| > 0 {
      SplitNoSeparator(s[1..], sep);
    }
  }

  /** Splitting `p + sep + t` (with no separator in `p`) gives `p` followed by the parts of `t`. */
  lemma {:induction false} SplitAfterPrefix(p: string, sep: char, t: string)
    requires sep !in p
    ensures Split(p + [sep] + t, sep) == [p] + Split(t, sep)
  {
    if |p| == 0 {
      assert p + [sep] + t == [sep] + t;
      assert ([sep] + t)[1..] == t;
    } else {
      var s := p + [sep] + t;
      assert s[0] == p[0] && p[0] in p;
      assert s[1..] == p[1..] + [sep] + t;
      SplitAfterPrefix(p[1..], sep, t);
      var rest := Split(s[1..], sep);
      assert rest[0] == p[1..] && rest[1..] == Split(t, sep);
      assert Split(s, sep) == [[s[0]] + rest[0]] + rest[1..];
      assert [s[0]] + rest[0] == p;
    }
  }

  /** Python's `a <= b` on strings. */
  predicate LexLe(a: string, b: string): (r: bool)
    ensures a <= b ==> r
    ensures r && |a| > 0 ==> |b| > 0 && a[0] <= b[0]
  {
    |a| == 0 || (|b| > 0 && (a[0] < b[0] || (a[0] == b[0] && LexLe(a[1..], b[1..]))))
  }

  lemma {:induction false} LexLeReflexive(a: string)
    ensures LexLe(a, a)
  {
    if |a| > 0 {
      LexLeReflexive(a[1..]);
    }
  }

  lemma {:induction false} LexLeTotal(a: string, b: string)
    ensures LexLe(a, b) || LexLe(b, a)
  {
    if |a| > 0 && |b| > 0 && a[0] == b[0] {
      LexLeTotal(a[1..], b[1..]);
    }
  }

  lemma {:induction false} LexLeTransitive(a: string, b: string, c: string)
    requires LexLe(a, b) && LexLe(b, c)
    ensures LexLe(a, c)
  {
    if |a| > 0 && |b| > 0 && |c| > 0 && a[0] == b[0] == c[0] {
      LexLeTransitive(a[1..], b[1..], c[1..]);
    }
  }

  lemma {:induction false} LexLeAntisymmetric(a: string, b: string)
    requires LexLe(a, b) && LexLe(b, a)
    ensures a == b
  {
    if |a| > 0 && |b| > 0 {
      LexLeAntisymmetric(a[1..], b[1..]);
      assert a == [a[0]] + a[1..] && b == [b[0]] + b[1..];
    }
  }
}

=== FILE: wrappers.dfy ===
/** Failure-carrying result types used by the parsers of this model. */
module Wrappers {

  datatype Option<+T> = None | Some(value: T)

  datatype Result<+T, +E> = Ok(value: T) | Err(error: E)
}
